=== FILE: README.md ===
# Chat server and attendance service, modelled in Dafny

This project models the stateful core of two small Node.js back ends and
proves properties of that model.

**The chat server (`Chat_app/backend`).** Clients log in over HTTP and
receive a JSON Web Token. They open a socket.io connection carrying that
token. On the socket they announce presence (`join-network`), join rooms,
and send messages: to a shared room ("Lounge" by default), or privately,
in a room whose name is derived from the two user ids. Every message is
stored before it is broadcast. The history of a room or of a two-party
conversation is read back over HTTP behind a bearer-token middleware.

- **State.** The database and socket.io become the fields of one class,
  `ChatStore.ChatServer`:
  - the user collection, in its natural order;
  - the connected sockets and the decoded token of each;
  - room membership;
  - the message log;
  - the list of emits, each with the sockets it reaches.
- **Handlers.** Each event handler is one atomic method on that class.
- **Pure parts.** These are functions, with lemmas about them:
  - the token middleware and the handshake gate (`TokenAuth`);
  - the private room key (`RoomKey`);
  - the history query (`MessageHistory`);
  - the decisions of the account routes (`UserRoutes`).

**The attendance service (`basicCode/03/backend`, `03/backend`).**
Teachers mark students Present or Absent for a subject on a date. The
service refuses:
- marks on holidays;
- marks by a teacher who does not teach that class or section;
- a second mark for the same student, date and subject.

A mark can be edited for 24 hours. A job fills in Absent records for the
unmarked students of a class. Queries report per-student trends, the top
three students of a week, the share of each student's attendance in a
month, and students absent three or more times in a week. Students,
teachers and holidays are created with validation.

- **State.** The collections are the fields of one class,
  `AttendanceModel.Store`. A document's id is its position in its
  collection.
- **Invariants.** The unique indexes of the schemas are the store's
  invariant `Valid()`:
  - (name, class) for students;
  - date for holidays;
  - (student, date, subject) for attendance records.
- **Dates.** A date is a day number. `new Date(year, monthIndex, day)` is
  `Calendar.DateDay`, with JavaScript's rollover and two-digit-year rules.
  The edit window compares milliseconds.
- **Aggregations.** Each one is modelled stage by stage:
  - `$match` is a filter;
  - `$group` groups by student, in order of first appearance;
  - `$sort` is an insertion sort that puts equal keys in reverse input order;
  - `$limit` is a prefix;
  - `$lookup` + `$unwind` is a join that drops groups whose student does
    not exist.
- **Second back end.** The small attendance controller of `03/backend` is
  `MinimalAttendance`, over its own record schema.

**Modelling choices.**
- Request fields are `Option<string>` (`Common.Field`). None is JavaScript's
  `undefined`, and `Common.Truthy` is JavaScript truthiness.
- Anything the code delegates to a library it cannot see becomes a
  function parameter:
  - token verification;
  - `bcrypt.compare`;
  - the case-insensitive name pattern;
  - mongoose's ObjectId cast of the message route's ids;
  - the configured referral code;
  - the clock.
- Where a schema validator fails, the model returns the same status the
  handler's `catch` sends. The error text of mongoose itself is a named
  constant standing for it.

One module per source file:
- `room_key.dfy`, `chat_store.dfy`, `message_history.dfy`, `token_auth.dfy`
  and `user_routes.dfy` for the chat server;
- `attendance_model.dfy`, `attendance_controller.dfy`,
  `attendance_queries.dfy`, `student_controller.dfy`,
  `teacher_controller.dfy`, `holiday_controller.dfy` and
  `minimal_attendance.dfy` for the attendance service;
- `common.dfy`, `sorting.dfy` and `calendar.dfy` are shared vocabulary.

## Model

| member | source | states |
|---|---|---|
| RoomKey.SortPair | Chat_app/backend/socket/socketHandler.js:33 | `[a, b].sort()` returns the two ids in some order, the smaller first in string order |
| RoomKey.LexLessTrichotomy | Chat_app/backend/socket/socketHandler.js:33 | the string order that `sort()` uses relates any two distinct ids exactly one way |
| RoomKey.PrivateRoomKey | Chat_app/backend/socket/socketHandler.js:33 | two ids give one of them, "_", then the other (length of both plus one); a missing id sorts last and joins as nothing, so one id gives that id followed by "_" and none gives "_" |
| RoomKey.PrivateRoomKeySymmetric | Chat_app/backend/socket/socketHandler.js:33 | the private room key does not depend on who sends: key(a, b) == key(b, a), also when an id is missing |
| RoomKey.PrivateRoomKeyAscending | Chat_app/backend/socket/socketHandler.js:33 | for two ids the key is the smaller id, "_", then the larger id |
| RoomKey.PrivateRoomKeyInjective | Chat_app/backend/socket/socketHandler.js:33 | two pairs of ids without underscores share a room only if they are the same unordered pair |
| ChatStore.GlobalRoom | Chat_app/backend/socket/socketHandler.js:25 | a missing or empty room becomes "Lounge"; any other room is kept |
| ChatStore.JoinNetworkUsers | Chat_app/backend/socket/socketHandler.js:8-13 | the first user with that username becomes online and bound to this socket; every other user, and every user when the name is unknown, is unchanged; usernames are kept |
| ChatStore.DisconnectUsers | Chat_app/backend/socket/socketHandler.js:40 | the first user in natural order bound to the socket goes offline and keeps the recorded socket; every user after it and every user not bound to the socket is unchanged; usernames are kept |
| ChatStore.JoinNetworkMarksUser | Chat_app/backend/socket/socketHandler.js:8-13 | for an existing username, that user becomes online and bound to this socket, and every other user is unchanged |
| ChatStore.JoinNetworkUnknownUser | Chat_app/backend/socket/socketHandler.js:8-9 | an unknown username changes no user |
| ChatStore.DisconnectOnlyClearsOnline | Chat_app/backend/socket/socketHandler.js:40 | each user is either unchanged or was bound to the disconnecting socket and only went offline; the recorded socket is not cleared |
| ChatStore.StaleDisconnectIsNoOp | Chat_app/backend/socket/socketHandler.js:40 | a user bound to another socket is untouched by a disconnect |
| ChatStore.RejoinSurvivesStaleDisconnect | Chat_app/backend/socket/socketHandler.js:7-43 | join on socket c1, rejoin on c2, then c1 disconnects: the user is still online on c2 |
| ChatStore.JoinThenDisconnectGoesOffline | Chat_app/backend/socket/socketHandler.js:7-43 | join and then the same socket's disconnect leave the user offline, with the socket still recorded |
| ChatStore.LeaveAllRooms | Chat_app/backend/socket/socketHandler.js:39 | a disconnecting socket leaves every room; rooms left empty disappear and all others keep their other members |
| ChatStore.ChatServer.Connect | Chat_app/backend/server.js:26-35 | a socket becomes connected only when the gate admits it, with `socket.user` set to the decoded claims, and joins the room named after its own id; a refused socket changes nothing |
| ChatStore.ChatServer.JoinNetwork | Chat_app/backend/socket/socketHandler.js:7-16 | presence is recorded as `JoinNetworkUsers`, then the whole roster is sent to every connected socket, for known and unknown usernames alike |
| ChatStore.ChatServer.JoinRoom | Chat_app/backend/socket/socketHandler.js:19-21 | the socket is added to the room's members; nothing else changes and nothing is emitted |
| ChatStore.ChatServer.SendGlobal | Chat_app/backend/socket/socketHandler.js:24-28 | the message is stored iff it has a sender and the store accepts it; the emit to the room's members follows the store, and nothing is emitted when storing fails; the sender's own socket receives it iff it is a member of the room (its own-id room included), which is "Lounge" when the payload has no room |
| ChatStore.ChatServer.SendPrivate | Chat_app/backend/socket/socketHandler.js:31-36 | the message is stored under the pair's room key, then emitted to that room's members; nobody is joined to the room, so the sender's own socket receives it iff it had joined that room; nothing is emitted when storing fails |
| ChatStore.ChatServer.Disconnect | Chat_app/backend/socket/socketHandler.js:39-43 | the socket leaves every room, its user goes offline as `DisconnectUsers`, and the roster goes to every remaining socket |
| MessageHistory.Selected | Chat_app/backend/routes/message.js:12-23 | for "Lounge", exactly the logged messages whose room is "Lounge"; for any other id, exactly the logged messages between the requester and that id |
| MessageHistory.History | Chat_app/backend/routes/message.js:12-24 | the answer is ordered by non-decreasing timestamp and is a permutation of the selected messages |
| MessageHistory.LoungeHistoryExact | Chat_app/backend/routes/message.js:12-14 | "Lounge" returns exactly the logged messages whose room is "Lounge" |
| MessageHistory.PrivateHistoryExact | Chat_app/backend/routes/message.js:18-23 | any other id returns exactly the messages from the requester to it or from it to the requester |
| MessageHistory.PrivateHistoryInvolvesRequester | Chat_app/backend/routes/message.js:19-22 | every private result has a receiver and has the requester at one end |
| MessageHistory.PrivateHistorySymmetric | Chat_app/backend/routes/message.js:19-22 | both participants get the same private history, in the same order |
| MessageHistory.NoMatchIsEmpty | Chat_app/backend/routes/message.js:23-24 | for a private id, no matching message makes the query's list empty; the route sends it only when both ids pass the ObjectId cast (see MessagesRoute) |
| MessageHistory.PrivateMessageVisibleToBoth | Chat_app/backend/routes/message.js:18-23 | a stored private message from a to b is in both a's and b's later history |
| MessageHistory.MessagesRoute | Chat_app/backend/routes/message.js:7-24 | a rejected token gives 401; an authenticated request is answered 200 with the history for the id in the token iff the id is "Lounge" or both ids pass the ObjectId cast (Chat_app/backend/models/Message.js:4-5); otherwise the query rejects uncaught and no response is sent |
| MessageHistory.LoungeAlwaysAnswered | Chat_app/backend/routes/message.js:12-15 | an authenticated "Lounge" request is always answered 200, since its query casts no id |
| Sorting.TiesReversed | Chat_app/backend/routes/message.js:13 | the order the model picks for equal keys, which the database leaves open: two elements with equal keys come out in reverse input order |
| Sorting.SortBy | Chat_app/backend/routes/message.js:13 | `.sort(...)` returns a permutation of its input, ordered by the key |
| TokenAuth.SplitOnSpace | Chat_app/backend/middleware/auth.js:5 | `split(' ')` always yields at least one field; with SplitJoin and SplitFieldsHaveNoSpace it is exactly the space-free fields between single spaces |
| TokenAuth.SplitJoin | Chat_app/backend/middleware/auth.js:5 | `split(' ')` loses nothing: joining the fields with spaces gives the header back |
| TokenAuth.SplitFieldsHaveNoSpace | Chat_app/backend/middleware/auth.js:5 | no field of `split(' ')` contains a space |
| TokenAuth.SplitNoSpace | Chat_app/backend/middleware/auth.js:5 | a string without spaces splits into itself alone |
| TokenAuth.HeaderToken | Chat_app/backend/middleware/auth.js:5 | a missing header gives no token |
| TokenAuth.NoSpaceNoToken | Chat_app/backend/middleware/auth.js:5 | a header without a space gives no token |
| TokenAuth.HeaderTokenIsSecondField | Chat_app/backend/middleware/auth.js:5 | the token is the text after the first space, up to the next space |
| TokenAuth.BearerTokenExtracted | Chat_app/backend/middleware/auth.js:5 | "Bearer X" yields exactly X |
| TokenAuth.AuthMiddleware | Chat_app/backend/middleware/auth.js:4-14 | no token (missing or empty) gives 401 "No token provided"; a failed verification gives 401 "Invalid or expired token"; a verified token always calls `next` with its claims, and `next` is called only then |
| TokenAuth.MissingTokenNeverVerified | Chat_app/backend/middleware/auth.js:6-9 | without a token the outcome does not depend on the verifier |
| TokenAuth.Request.constructor | Chat_app/backend/middleware/auth.js:4 | a fresh request has no user, no response and no call to `next` |
| TokenAuth.Authenticate | Chat_app/backend/middleware/auth.js:4-14 | exactly one of these happens: `next` is called once with `req.user` set to the claims, or one 401 response is sent |
| TokenAuth.HandshakeGate | Chat_app/backend/server.js:26-35 | no token gives "Authentication error"; a failed verification gives "Authentication failed"; a valid token admits with its claims |
| TokenAuth.HandshakeMissingNeverVerified | Chat_app/backend/server.js:27-28 | without a token the gate's outcome does not depend on the verifier |
| UserRoutes.FieldChecks | Chat_app/backend/routes/user.js:12-16 | a missing username, password or code gives 400 before the code is compared; a wrong code gives 401; both pass otherwise |
| UserRoutes.UnsetReferralRefusesAll | Chat_app/backend/routes/user.js:15-16 | with no configured code, every complete request gets 401 |
| UserRoutes.RegisterOutcome | Chat_app/backend/routes/user.js:10-26 | register succeeds iff the checks pass and the username is free; a failed field or code check is returned as is; the new user is offline with the given code; a taken username gives 500 |
| UserRoutes.LoginOutcome | Chat_app/backend/routes/user.js:29-50 | a failed check is returned as is; login succeeds iff the checks pass, the username exists and the password comparison succeeds, answering with that stored user, now online, and a token for its id and name; any other failure is 401 "Invalid username or password" |
| UserRoutes.LoginFailuresIdentical | Chat_app/backend/routes/user.js:37-43 | an unknown username and a wrong password both give the same 401 "Invalid username or password" |
| UserRoutes.Register | Chat_app/backend/routes/user.js:19-22 | a successful register appends exactly the returned user; a refusal changes no user; usernames stay unique |
| UserRoutes.Login | Chat_app/backend/routes/user.js:37-49 | a successful login sets only that user's `isOnline`; a failed login changes no user |
| UserRoutes.SearchUsers | Chat_app/backend/routes/user.js:52-62 | no more results than stored users, and each result is the projection, without the referral code, of a stored user that passes the filter |
| UserRoutes.SearchExact | Chat_app/backend/routes/user.js:55-59 | the search returns, without the referral code, exactly the users that match the name pattern when one is given and whose code equals the given code exactly |
| AttendanceModel.ParseStatus | basicCode/03/backend/enums/attendanceStatus.js:1-4 | only "Present" and "Absent" are accepted, each as its own value |
| AttendanceModel.HasSlotExact | basicCode/03/backend/controllers/attendaceController.js:125-129 | `findOne({ student, date, subject })` finds a record iff one has that student, date and subject |
| AttendanceModel.HasSlotAppend | basicCode/03/backend/controllers/attendaceController.js:125-129 | after one record is appended, a slot is taken iff it was taken before or is the new record's |
| AttendanceModel.HasSlotExtend | basicCode/03/backend/controllers/attendaceController.js:125-129 | a taken slot stays taken as records are added |
| AttendanceModel.AppendFreeSlot | basicCode/03/backend/models/Attendance.js:15 | appending a record for a free slot keeps (student, date, subject) unique |
| AttendanceModel.AppendNewStudent | basicCode/03/backend/models/Student.js:11 | appending a student with a new (name, class) keeps (name, class) unique |
| AttendanceModel.Store.constructor | basicCode/03/backend/models/Attendance.js:15 | an empty store satisfies the unique-index invariants |
| AttendanceController.MarkOutcome | basicCode/03/backend/controllers/attendaceController.js:94-150 | checks in a fixed order (holiday 400, teacher 403, duplicate 400, then schema validation 400, each forced once the earlier ones pass); 403 occurs exactly for an unauthorised teacher on a non-holiday; a record is made iff all pass, with the given fields and the parsed status |
| AttendanceController.IsHoliday | basicCode/03/backend/controllers/attendaceController.js:106-111 | a date is a holiday iff some stored holiday has that date |
| AttendanceController.Authorised | basicCode/03/backend/controllers/attendaceController.js:113-118 | an authorised teacher exists and teaches the class; a teacher of the class whose own section is the one marked is always authorised |
| AttendanceController.SectionlessTeacherAnySection | basicCode/03/backend/controllers/attendaceController.js:113-118 | a teacher without a section is authorised for every section of its class alike |
| AttendanceController.SectionedTeacherOwnSection | basicCode/03/backend/controllers/attendaceController.js:113-118 | a teacher with a section is authorised iff the class and the section are its own |
| AttendanceController.RemarkIsDuplicate | basicCode/03/backend/controllers/attendaceController.js:125-134 | repeating an accepted mark is refused with 400 as a duplicate |
| AttendanceController.MarkAttendance | basicCode/03/backend/controllers/attendaceController.js:136-146 | an accepted mark appends exactly its record; a refusal stores nothing; the unique slots are kept |
| AttendanceController.EditOutcome | basicCode/03/backend/controllers/attendaceController.js:4-24 | a malformed id gives 400, an unknown id 404, more than 24 h after creation 403, a bad status 400; otherwise only the status changes |
| AttendanceController.EditWindowBoundary | basicCode/03/backend/controllers/attendaceController.js:13 | exactly 86,400,000 ms after creation an edit is allowed; 86,400,001 ms after, it is refused with 403 |
| AttendanceController.EditAttendance | basicCode/03/backend/controllers/attendaceController.js:18-20 | an allowed edit replaces only that record, with only its status changed; a refusal changes nothing |
| AttendanceController.ClassRoster | basicCode/03/backend/controllers/attendaceController.js:66 | the roster holds exactly the students of that class and section |
| AttendanceController.Fill | basicCode/03/backend/controllers/attendaceController.js:67-85 | earlier records are untouched; every added record is Absent, auto-marked, for a listed student, with the given teacher; a create that cannot validate adds nothing |
| AttendanceController.FillCovers | basicCode/03/backend/controllers/attendaceController.js:67-85 | with a teacher, the run completes and every listed student has a record for (date, subject) |
| AttendanceController.FillAllMarked | basicCode/03/backend/controllers/attendaceController.js:68-73 | when every listed student is already marked, the run adds nothing |
| AttendanceController.FillIdempotent | basicCode/03/backend/controllers/attendaceController.js:64-86 | a second run after a completed one adds nothing |
| AttendanceController.FillKeepsUnique | basicCode/03/backend/controllers/attendaceController.js:68-84 | the run never creates a second record for a (student, date, subject) |
| AttendanceController.NullTeacherStoresNothing | basicCode/03/backend/controllers/attendaceController.js:74-83 | as written (`teacher: null`), the run stores nothing, and it completes only when every student was already marked |
| AttendanceController.NullTeacherLeavesStudentUnmarked | basicCode/03/backend/controllers/attendaceController.js:64-86 | as written, a class of one unmarked student ends with that student still unmarked |
| AttendanceController.AutoMarkAbsentees | basicCode/03/backend/controllers/attendaceController.js:64-86 | the loop leaves the records that `Fill` describes for the class roster, and keeps the unique slots |
| AttendanceController.AutoMarkCovers | basicCode/03/backend/controllers/attendaceController.js:64-86 | with a teacher id, every student of the class and section is marked for (date, subject); earlier records are untouched; added records are Absent and auto-marked |
| Calendar.DateDay | basicCode/03/backend/controllers/attendaceController.js:172 | for a month index 0..11, `new Date(y, m, d)` is day d of month m + 1 of the civil calendar, with years 0..99 read as 1900..1999 |
| Calendar.MonthIndexRollsOver | basicCode/03/backend/controllers/attendaceController.js:173 | month index m + 12 is month m of the next year, where the two-digit rule does not separate the years |
| Calendar.DayOffset | basicCode/03/backend/controllers/attendaceController.js:35 | the day argument of the Date constructor is a plain offset (days roll over) |
| Calendar.EpochIsDayZero | basicCode/03/backend/controllers/attendaceController.js:35 | 1 January 1970 is day 0 |
| Calendar.WeekWindow | basicCode/03/backend/controllers/attendaceController.js:187-188 | week w is the 7 days starting (w - 1) * 7 days after 1 January |
| Calendar.WeeksTile | basicCode/03/backend/controllers/attendaceController.js:287-288 | week w ends exactly where week w + 1 starts |
| Calendar.WeekOfIsUnique | basicCode/03/backend/controllers/attendaceController.js:187-188 | each day lies in exactly one week window of a year |
| Calendar.MonthWindow | basicCode/03/backend/controllers/attendaceController.js:172-173 | the half-open month window holds exactly the days from the month's first day to its last day |
| Calendar.MonthsTile | basicCode/03/backend/controllers/attendaceController.js:214-215 | each month's window ends where the next month's starts |
| Calendar.YearsTile | basicCode/03/backend/controllers/attendaceController.js:250-251 | December's window ends where January's of the next year starts, except across the two-digit-year boundary |
| Calendar.TwoDigitYearGap | basicCode/03/backend/controllers/attendaceController.js:172 | year 99 means 1999 and year 100 means 100, so their December and January windows do not meet |
| Calendar.MonthLength | basicCode/03/backend/controllers/attendaceController.js:172-173 | every month window of a year from 100 on spans 28 to 31 days |
| AttendanceQueries.DistinctStudents | basicCode/03/backend/controllers/attendaceController.js:198 | `$group` by student gives each student with a record exactly once |
| AttendanceQueries.CountForPositive | basicCode/03/backend/controllers/attendaceController.js:198 | a student has a group iff it has at least one matched record |
| AttendanceQueries.PresentWithinTotal | basicCode/03/backend/controllers/attendaceController.js:226-230 | a group's present count never exceeds its total |
| AttendanceQueries.Tallies | basicCode/03/backend/controllers/attendaceController.js:198 | one group per student with a matched record, no student twice, none with a zero count |
| AttendanceQueries.TalliesExact | basicCode/03/backend/controllers/attendaceController.js:198 | each group's `$sum: 1` is the number of that student's matched records, and every student with records has its group |
| AttendanceQueries.Shares | basicCode/03/backend/controllers/attendaceController.js:225-231 | one group per student with a matched record, no student twice; present never exceeds a positive total |
| AttendanceQueries.SharesExact | basicCode/03/backend/controllers/attendaceController.js:225-231 | each group's total and present counts are that student's, with 0 < total and present <= total |
| AttendanceQueries.Lookup | basicCode/03/backend/controllers/attendaceController.js:201-209 | each group of an existing student is joined with that student's document; groups of missing students are dropped |
| AttendanceQueries.LookupKeepsOrder | basicCode/03/backend/controllers/attendaceController.js:199-209 | the join keeps the sorted order of the groups |
| AttendanceQueries.Top3 | basicCode/03/backend/controllers/attendaceController.js:189-210 | at most three entries |
| AttendanceQueries.Top3KeepsLeaders | basicCode/03/backend/controllers/attendaceController.js:199-209 | each of the first three groups by count whose student exists is in the answer |
| AttendanceQueries.Top3Size | basicCode/03/backend/controllers/attendaceController.js:189-210 | when every student present that week exists, the answer has min(3, number of students present) entries |
| AttendanceQueries.Top3FromTallies | basicCode/03/backend/controllers/attendaceController.js:189-200 | every entry is one of the week's Present groups |
| AttendanceQueries.Top3Counts | basicCode/03/backend/controllers/attendaceController.js:190-198 | each entry is an existing student with its document, and its count is its positive number of Present records in the class, section and week |
| AttendanceQueries.Top3Descending | basicCode/03/backend/controllers/attendaceController.js:199 | the entries come in non-increasing count |
| AttendanceQueries.Top3NoneHigherOmitted | basicCode/03/backend/controllers/attendaceController.js:199-200 | no existing student left out was present more often than any student returned |
| AttendanceQueries.AbsentAlerts | basicCode/03/backend/controllers/attendaceController.js:289-302 | every alert is an existing student, with its document, counted at least 3 times |
| AttendanceQueries.AbsentAlertsExact | basicCode/03/backend/controllers/attendaceController.js:289-302 | an existing student is alerted iff it has at least 3 Absent records in the week, in any class, and each alert carries that count |
| AttendanceQueries.Performance | basicCode/03/backend/controllers/attendaceController.js:216-247 | every row is an existing student with its document, a positive total and present <= total |
| AttendanceQueries.PerformanceExact | basicCode/03/backend/controllers/attendaceController.js:216-247 | each existing student with records in the class, section and month is listed with its present and total counts, and no other student is |
| AttendanceQueries.Above70 | basicCode/03/backend/controllers/attendaceController.js:252-284 | every row is an existing student with its document and a share of at least 70% of a positive total |
| AttendanceQueries.Above70Exact | basicCode/03/backend/controllers/attendaceController.js:252-284 | exactly the existing students whose Present share of their records in the class, section and month is at least 70% are listed |
| AttendanceQueries.Trend | basicCode/03/backend/controllers/attendaceController.js:172-183 | present <= total, and total is 0 iff the student has no record in the month |
| AttendanceQueries.TrendAppend | basicCode/03/backend/controllers/attendaceController.js:174-182 | one more stored record raises total by one iff it is the student's in that month (`MonthOf`), and present by one iff it is also Present (`PresentMonthOf`); with the empty collection at (0, 0) this fixes both counts |
| AttendanceQueries.TrendFilters | basicCode/03/backend/controllers/attendaceController.js:174-182 | the two `countDocuments` filters select the student's records dated in the month, and of those the Present ones |
| AttendanceQueries.GetAttendance | basicCode/03/backend/controllers/attendaceController.js:153-314 | the first branch whose parameters are all given decides the answer, in the order trends (its counts, or the 500 error without year or month), top3, performance, above70 (only when performance is not given), absentAlerts; each branch's answer is stated exactly; all records are returned iff no branch applies |
| AttendanceQueries.PerformanceShadowsAbove70 | basicCode/03/backend/controllers/attendaceController.js:211-248 | with both performance and above70 given, the unfiltered performance rows are returned |
| StudentController.TrimStart | basicCode/03/backend/models/Student.js:6 | removes exactly the leading white space |
| StudentController.TrimEnd | basicCode/03/backend/models/Student.js:6 | removes exactly the trailing white space |
| StudentController.Trim | basicCode/03/backend/models/Student.js:6 | the result is a middle slice of the name that neither starts nor ends with white space, and everything cut off is white space |
| StudentController.TrimIdempotent | basicCode/03/backend/models/Student.js:6 | trimming twice is trimming once |
| StudentController.AllSpaceTrimsToEmpty | basicCode/03/backend/models/Student.js:6 | a name made only of white space trims to "" |
| StudentController.CreateStudentOutcome | 03/backend/controllers/studentController.js:9-32 | a missing name, class or section gives 400 first; a taken (trimmed name, class) gives 400; a student is created iff all checks pass and the trimmed name is not empty |
| StudentController.SameNameSameClassRefused | 03/backend/controllers/studentController.js:18-25 | after a create, the same trimmed name in the same class is refused whatever the section |
| StudentController.CreateStudent | 03/backend/controllers/studentController.js:26-28 | success appends exactly the new student; a refusal stores nothing; (name, class) stays unique |
| StudentController.GetStudents | 03/backend/controllers/studentController.js:36-92 | all students are returned unless performance or above70 comes with class, section, month and year; above70 selects the 70% rows, performance alone the unfiltered ones |
| StudentController.GetStudentsAbove70Exact | 03/backend/controllers/studentController.js:82 | the above70 rows are exactly the existing students at or above 70% in that class, section and month |
| TeacherController.CreateTeacherOutcome | 03/backend/controllers/teacherController.js:3-23 | a teacher is created iff name and class are given and subjects is a non-empty list, with the given fields; otherwise 400 |
| TeacherController.SectionDoesNotDecide | 03/backend/controllers/teacherController.js:6-17 | whether a teacher is created does not depend on the section |
| TeacherController.CreateTeacher | 03/backend/controllers/teacherController.js:17-19 | success appends exactly the new teacher; a refusal changes nothing |
| TeacherController.GetTeachers | 03/backend/controllers/teacherController.js:25-32 | every stored teacher, in collection order |
| TeacherController.CreatedTeacherAuthorisation | 03/backend/controllers/teacherController.js:17 | a newly created teacher may mark any section of its class when it has no section, otherwise only its own |
| HolidayController.CreateHolidayOutcome | basicCode/03/backend/controllers/holidayController.js:4-14 | a missing date gives 400; a date already taken gives 400; otherwise a holiday with that date and description is created |
| HolidayController.CreateHoliday | basicCode/03/backend/controllers/holidayController.js:8-10 | success appends exactly the new holiday; a refusal changes nothing; dates stay unique |
| HolidayController.GetHolidays | basicCode/03/backend/controllers/holidayController.js:17-24 | every stored holiday, in collection order |
| HolidayController.HolidayBlocksMarking | basicCode/03/backend/controllers/attendaceController.js:106-111 | once a date is a holiday, a mark on it gets 400 and a second holiday on it is refused |
| MinimalAttendance.MarkEntry | 03/backend/controllers/attendaceController.js:3-17 | an entry is saved iff student, teacher and a valid status are given, with the load-time date; otherwise 400 |
| MinimalAttendance.ListEntries | 03/backend/controllers/attendaceController.js:19-36 | an empty collection gives 404; otherwise 200 with every entry |
| MinimalAttendance.Ledger.Mark | 03/backend/controllers/attendaceController.js:6-13 | a saved entry is appended; a failure stores nothing |
| MinimalAttendance.Ledger.List | 03/backend/controllers/attendaceController.js:21-29 | the listing is `ListEntries` of the stored entries |
| MinimalAttendance.MarkThenListed | 03/backend/controllers/attendaceController.js:21-29 | after a successful mark, the listing answers 200 and ends with that entry |
| MinimalAttendance.MarksShareTheLoadDate | 03/backend/models/Attendance.js:15 | every saved entry carries the same date, the instant the schema was loaded |

## Left out

- Transport and persistence are replaced by in-memory fields, with one atomic method per handler. The model leaves out socket.io, Express routing, the MongoDB connection and `server.listen`, and the interleaving of concurrent async handlers.
- Token signing and verification (jsonwebtoken, with the 7-day expiry in `Chat_app/backend/utils/jwt.js`) are out: `verify` is a partial function parameter. Register and login return the claims a token would sign, not a signed token.
- UserRoutes.LoginOutcome: `bcrypt.compare` is a parameter, so the outcome of a comparison is left to it. The user schema (`Chat_app/backend/models/User.js:3-9`) has no password field, so the register password is never stored. The comparison is therefore always handed an absent stored password (`StoredPassword`). bcrypt itself raises an error on that instead of answering, and the model does not follow that error path.
- UserRoutes.SearchUsers: the case-insensitive regular expression is a parameter `nameMatches`, and regex syntax errors are not modelled.
- Document ids (`_id`) and the `createdAt` defaults are parameters (`freshId`, `now`). `updatedAt` is not modelled.
- ChatStore.ChatServer.SendGlobal: `storeUp` stands for every reason the database can refuse a write, including a sender id that is not an ObjectId. `senderName` is not in the message schema, so it is neither stored nor sent.
- ChatStore.JoinNetworkUsers: the username is always a string; a payload without one is not modelled.
- RoomKey.LexLess compares whole characters, while JavaScript compares UTF-16 code units. The two orders differ only for characters outside the Basic Multilingual Plane, which ObjectId strings never contain.
- The history sort and the `$sort` stage leave the order of equal keys open in the database. The model fixes one such order: equal keys come out in reverse input order (`Sorting.TiesReversed`). In top3, for example, a tie goes to the student whose group appears later.
- Groups of `$group` come in order of first appearance. The database leaves this order open too.
- Percentages are exact: a share is at or above 70% when 100 · present ≥ 70 · total.
  - The floating-point `percent` fields (`$divide` then `$multiply`) are out, and the rows carry present and total instead.
  - The trends `percent` is out; the answer carries present and total.
- Dates are day numbers; time of day and time zones are out. The month window's end time 23:59:59 becomes the whole last day.
- MessageHistory.MessagesRoute: the ObjectId cast is a parameter `isObjectId`; when it fails the model's outcome is `NoAnswer`, and what the client eventually sees (a timeout, or a crash under an unhandled-rejection policy) is not modelled.
- Casting errors are mostly left out. This covers non-numeric week, year or month values, invalid date strings, and student or teacher ids that are not ObjectIds.
  - Edit does model a malformed id, as 400.
  - Trends does model a missing year or month, as the 500 `FetchError`.
- `populate("student")` and `populate("teacher")` in the default branches are out: the records are returned as stored.
- `exportAttendanceCSV` (json2csv serialisation and its own parameter check) is out. Its week window is the same `Calendar.WeekWindow` used by top3 and absentAlerts.
- AttendanceController.MarkAttendance: the student id is not checked for existence, as in the source.
- Teacher existence means the id is a position in the teacher collection.
- The error texts of mongoose validation, cast and duplicate-key errors are named constants standing for the real messages. Their status codes are modelled exactly.
- HolidayController.CreateHolidayOutcome: `date` is None for any falsy date (absent, "", 0). A given date is a day number, and an unparsable date string is not modelled.
- `03/backend/controllers/studentController.js` is modelled against the student schema with name, class and section (`basicCode/03/backend/models/Student.js`). The schema next to it (`03/backend/models/Student.js`) has only a name. The `trim` setter applies to the stored name and to the `findOne` filter.
- StudentController.GetStudents: the aggregation matches on `class` and `section`, but the attendance schema next to this controller (`03/backend/models/Attendance.js:4-21`) has neither field, nor `subject`. The model reads the records in the richer schema of `basicCode/03/backend/models/Attendance.js`. Records saved through the sparser schema carry no class or section, so there the `$match` would select none of them and every performance or above70 answer would be empty.
- The database's unique indexes are kept as store invariants. They are never hit as a race between two handlers, because the handlers are atomic.

## Findings

| source | as written | input that shows it | evidently intended | confidence | as-written member | corrected member |
|---|---|---|---|---|---|---|
| basicCode/03/backend/controllers/attendaceController.js:74-83 | `autoMarkAbsentees` creates each Absent record with `teacher: null`, but the schema requires a teacher (`basicCode/03/backend/models/Attendance.js:7`). So the first unmarked student's create fails, the run stops there and nothing is stored. | class "10" section "A" with one student and no records, subject "Maths" | every unmarked student of the class and section gets an Absent, auto-marked record | not executed | AttendanceController.NullTeacherStoresNothing | AttendanceController.AutoMarkCovers |

=== FILE: attendance_controller.dfy ===
/**
 * The writing operations of the attendance controller
 * (basicCode/03/backend/controllers/attendaceController.js): marking,
 * editing within 24 hours, and the auto-marking of absentees.
 *
 * Request fields are plain values here: the student and teacher are ids,
 * the date a day number, the status the string the client sent. A teacher
 * id exists when it is a position in the teacher collection. Saving a
 * record runs the schema's validators: every required string must be
 * non-empty, the teacher must be present and the status must be one of the
 * two enum values.
 */
module AttendanceController {
  import opened Common
  import opened AttendanceModel

  /** The schema's `required` string fields of an attendance record. */
  predicate RequiredPresent(className: string, section: string, subject: string) {
    className != "" && section != "" && subject != ""
  }

  // ---------------------------------------------------------------------
  // markAttendance
  // ---------------------------------------------------------------------

  datatype MarkRequest = MarkRequest(student: StudentId, teacher: TeacherId, className: string,
                                     section: string, subject: string, date: int, status: string)

  datatype MarkReply =
    | Marked(record: Record)
    | MarkRefused(status: int, error: string)

  const HolidayError := "Cannot mark attendance on a holiday."
  const NotAuthorisedError := "Teacher not authorized for this class/section."
  const DuplicateError := "Attendance already marked for this student, subject, and date."
  /** Stands for the text of the schema validator's error. */
  const ValidationError := "Attendance validation failed"

  /** `Holiday.findOne({ date })` finds a document. */
  predicate IsHoliday(holidays: seq<Holiday>, date: int)
    ensures IsHoliday(holidays, date) <==> exists k :: 0 <= k < |holidays| && holidays[k].date == date
  {
    FirstIndex(holidays, (h: Holiday) => h.date == date).Some?
  }

  /** The teacher exists, teaches the class, and either has no section or has this one. */
  predicate Authorised(teachers: seq<Teacher>, teacher: TeacherId, className: string, section: string)
    ensures Authorised(teachers, teacher, className, section) ==>
              teacher < |teachers| && teachers[teacher].className == className
    ensures teacher < |teachers| && teachers[teacher].className == className &&
            teachers[teacher].section == Some(section) ==>
              Authorised(teachers, teacher, className, section)
  {
    && teacher < |teachers|
    && teachers[teacher].className == className
    && (Truthy(teachers[teacher].section) ==> teachers[teacher].section.value == section)
  }

  /** The record a successful mark stores (`autoMarked` defaults to false). */
  function NewRecord(req: MarkRequest, status: Status, now: int): Record {
    Record(req.student, req.teacher, req.className, req.section, req.subject, req.date, status, false, now)
  }

  /** The handler's decision: holiday, then teacher, then duplicate, then the
      save's validation, each checked only once the previous one passed. */
  function MarkOutcome(holidays: seq<Holiday>, teachers: seq<Teacher>, records: seq<Record>,
                       req: MarkRequest, now: int): (r: MarkReply)
    ensures IsHoliday(holidays, req.date) ==> r == MarkRefused(400, HolidayError)
    ensures !IsHoliday(holidays, req.date) && !Authorised(teachers, req.teacher, req.className, req.section) ==>
              r == MarkRefused(403, NotAuthorisedError)
    ensures !IsHoliday(holidays, req.date) && Authorised(teachers, req.teacher, req.className, req.section) &&
            HasSlot(records, req.student, req.date, req.subject) ==>
              r == MarkRefused(400, DuplicateError)
    ensures r.Marked? <==>
              && !IsHoliday(holidays, req.date)
              && Authorised(teachers, req.teacher, req.className, req.section)
              && !HasSlot(records, req.student, req.date, req.subject)
              && RequiredPresent(req.className, req.section, req.subject)
              && ParseStatus(req.status).Some?
    ensures !IsHoliday(holidays, req.date) && Authorised(teachers, req.teacher, req.className, req.section) &&
            !HasSlot(records, req.student, req.date, req.subject) &&
            !(RequiredPresent(req.className, req.section, req.subject) && ParseStatus(req.status).Some?) ==>
              r == MarkRefused(400, ValidationError)
    ensures r.Marked? ==> r.record == NewRecord(req, ParseStatus(req.status).value, now)
    ensures r.MarkRefused? ==> r.status == 400 || r.status == 403
    ensures r.MarkRefused? && r.status == 403 <==>
              !IsHoliday(holidays, req.date) && !Authorised(teachers, req.teacher, req.className, req.section)
  {
    if IsHoliday(holidays, req.date) then MarkRefused(400, HolidayError)
    else if !Authorised(teachers, req.teacher, req.className, req.section) then
      MarkRefused(403, NotAuthorisedError)
    else if HasSlot(records, req.student, req.date, req.subject) then MarkRefused(400, DuplicateError)
    else if !RequiredPresent(req.className, req.section, req.subject) then MarkRefused(400, ValidationError)
    else match ParseStatus(req.status)
      case None => MarkRefused(400, ValidationError)
      case Some(status) => Marked(NewRecord(req, status, now))
  }

  /** A teacher without a section is authorised for every section of its class alike. */
  lemma SectionlessTeacherAnySection(teachers: seq<Teacher>, teacher: TeacherId, className: string,
                                     s1: string, s2: string)
    requires teacher < |teachers| && !Truthy(teachers[teacher].section)
    ensures Authorised(teachers, teacher, className, s1) == Authorised(teachers, teacher, className, s2)
  {
  }

  /** A teacher with a section is authorised for that section only. */
  lemma SectionedTeacherOwnSection(teachers: seq<Teacher>, teacher: TeacherId, className: string, section: string)
    requires teacher < |teachers| && Truthy(teachers[teacher].section)
    ensures Authorised(teachers, teacher, className, section) <==>
              teachers[teacher].className == className && teachers[teacher].section.value == section
  {
  }

  /** Repeating an accepted mark is refused as a duplicate. */
  lemma RemarkIsDuplicate(holidays: seq<Holiday>, teachers: seq<Teacher>, records: seq<Record>,
                          req: MarkRequest, now: int, later: int)
    requires MarkOutcome(holidays, teachers, records, req, now).Marked?
    ensures var stored := records + [MarkOutcome(holidays, teachers, records, req, now).record];
            MarkOutcome(holidays, teachers, stored, req, later) == MarkRefused(400, DuplicateError)
  {
    var rec := MarkOutcome(holidays, teachers, records, req, now).record;
    HasSlotAppend(records, rec, req.student, req.date, req.subject);
  }

  /** POST /attendance on the store: at most one record is appended. */
  method MarkAttendance(store: Store, req: MarkRequest, now: int) returns (reply: MarkReply)
    requires store.Valid()
    modifies store
    ensures store.Valid()
    ensures reply == MarkOutcome(old(store.holidays), old(store.teachers), old(store.records), req, now)
    ensures reply.Marked? ==> store.records == old(store.records) + [reply.record]
    ensures reply.MarkRefused? ==> store.records == old(store.records)
    ensures store.students == old(store.students) && store.teachers == old(store.teachers)
    ensures store.holidays == old(store.holidays)
  {
    reply := MarkOutcome(store.holidays, store.teachers, store.records, req, now);
    if reply.Marked? {
      AppendFreeSlot(store.records, reply.record);
      store.records := store.records + [reply.record];
    }
  }

  // ---------------------------------------------------------------------
  // editAttendance
  // ---------------------------------------------------------------------

  /** 24 hours in milliseconds. */
  const EditWindowMs := 24 * 60 * 60 * 1000

  datatype EditReply =
    | Edited(record: Record)
    | EditRefused(status: int, error: string)

  const NotFoundError := "Attendance not found."
  const EditWindowError := "Attendance can only be edited within 24 hours."
  /** Stands for the text of the cast error a malformed id raises. */
  const MalformedIdError := "Cast to ObjectId failed"

  /** The decision of PATCH /attendance/:id. `id` is None for a string that is
      not an ObjectId; `now` and `createdAt` are milliseconds. */
  function EditOutcome(records: seq<Record>, id: Option<nat>, status: Field, now: int): (r: EditReply)
    ensures id.None? ==> r == EditRefused(400, MalformedIdError)
    ensures id.Some? && id.value >= |records| ==> r == EditRefused(404, NotFoundError)
    ensures id.Some? && id.value < |records| && now - records[id.value].createdAt > EditWindowMs ==>
              r == EditRefused(403, EditWindowError)
    ensures r.Edited? <==>
              && id.Some? && id.value < |records|
              && now - records[id.value].createdAt <= EditWindowMs
              && status.Some? && ParseStatus(status.value).Some?
    ensures r.Edited? ==> r.record == records[id.value].(status := ParseStatus(status.value).value)
  {
    match id
    case None => EditRefused(400, MalformedIdError)
    case Some(i) =>
      if i >= |records| then EditRefused(404, NotFoundError)
      else if now - records[i].createdAt > EditWindowMs then EditRefused(403, EditWindowError)
      else if status.None? || ParseStatus(status.value).None? then EditRefused(400, ValidationError)
      else Edited(records[i].(status := ParseStatus(status.value).value))
  }

  /** Exactly 24 hours after creation an edit is still allowed; a millisecond later it is not. */
  lemma EditWindowBoundary(records: seq<Record>, i: nat, s: Status)
    requires i < |records|
    ensures var status := Some(if s == Present then "Present" else "Absent");
            && EditOutcome(records, Some(i), status, records[i].createdAt + 86400000).Edited?
            && EditOutcome(records, Some(i), status, records[i].createdAt + 86400001) == EditRefused(403, EditWindowError)
  {
  }

  /** PATCH /attendance/:id on the store: only that record's status changes. */
  method EditAttendance(store: Store, id: Option<nat>, status: Field, now: int) returns (reply: EditReply)
    requires store.Valid()
    modifies store
    ensures store.Valid()
    ensures reply == EditOutcome(old(store.records), id, status, now)
    ensures reply.Edited? ==> store.records == old(store.records)[id.value := reply.record]
    ensures reply.EditRefused? ==> store.records == old(store.records)
    ensures store.students == old(store.students) && store.teachers == old(store.teachers)
    ensures store.holidays == old(store.holidays)
  {
    reply := EditOutcome(store.records, id, status, now);
    if reply.Edited? {
      store.records := store.records[id.value := reply.record];
    }
  }

  // ---------------------------------------------------------------------
  // autoMarkAbsentees
  // ---------------------------------------------------------------------

  /** `Student.find({ class, section })`: the matching ids in collection order. */
  function ClassRoster(students: seq<Student>, className: string, section: string): (ids: seq<StudentId>)
    ensures forall k: StudentId :: k in ids <==>
              k < |students| && students[k].className == className && students[k].section == section
    decreases |students|
  {
    if students == [] then []
    else
      var n := |students| - 1;
      var earlier := ClassRoster(students[..n], className, section);
      if students[n].className == className && students[n].section == section then earlier + [n]
      else earlier
  }

  /** The record `Attendance.create` is given for an unmarked student. */
  function Absentee(student: StudentId, teacher: TeacherId, className: string, section: string,
                    subject: string, date: int, now: int): Record {
    Record(student, teacher, className, section, subject, date, Absent, true, now)
  }

  /** Whether `create` passes the schema's validators: a teacher and the required strings. */
  predicate Creatable(teacher: Option<TeacherId>, className: string, section: string, subject: string) {
    teacher.Some? && RequiredPresent(className, section, subject)
  }

  /** The records after the loop, and whether it ran to the end (false: `create` threw). */
  datatype FillResult = FillResult(records: seq<Record>, completed: bool)

  /** The loop over `ids` from a given collection of records: a student
      without a record for (date, subject) gets an Absent, auto-marked one;
      a failing `create` ends the loop with what was stored so far. */
  function Fill(records: seq<Record>, ids: seq<StudentId>, teacher: Option<TeacherId>, className: string,
                section: string, subject: string, date: int, now: int): (r: FillResult)
    ensures |records| <= |r.records| && r.records[..|records|] == records
    ensures forall k :: |records| <= k < |r.records| ==>
              teacher.Some? &&
              r.records[k] == Absentee(r.records[k].student, teacher.value, className, section, subject, date, now) &&
              r.records[k].student in ids
    ensures !Creatable(teacher, className, section, subject) ==> r.records == records
    decreases |ids|
  {
    if ids == [] then FillResult(records, true)
    else if HasSlot(records, ids[0], date, subject) then
      Fill(records, ids[1..], teacher, className, section, subject, date, now)
    else if !Creatable(teacher, className, section, subject) then FillResult(records, false)
    else
      var added := records + [Absentee(ids[0], teacher.value, className, section, subject, date, now)];
      var r := Fill(added, ids[1..], teacher, className, section, subject, date, now);
      assert r.records[..|records|] == r.records[..|added|][..|records|];
      r
  }

  /** One step of the loop for a valid teacher: the student is marked if it was not. */
  function MarkOne(records: seq<Record>, student: StudentId, teacher: TeacherId, className: string,
                   section: string, subject: string, date: int, now: int): seq<Record> {
    if HasSlot(records, student, date, subject) then records
    else records + [Absentee(student, teacher, className, section, subject, date, now)]
  }

  lemma FillStep(records: seq<Record>, ids: seq<StudentId>, teacher: Option<TeacherId>,
                 className: string, section: string, subject: string, date: int, now: int)
    requires Creatable(teacher, className, section, subject) && ids != []
    ensures var added := MarkOne(records, ids[0], teacher.value, className, section, subject, date, now);
            Fill(records, ids, teacher, className, section, subject, date, now) ==
              Fill(added, ids[1..], teacher, className, section, subject, date, now) &&
            HasSlot(added, ids[0], date, subject)
  {
    HasSlotAppend(records, Absentee(ids[0], teacher.value, className, section, subject, date, now),
                  ids[0], date, subject);
  }

  /** With a valid teacher, the run completes and every listed student has a
      record for (date, subject) afterwards. */
  lemma {:induction false} FillCovers(records: seq<Record>, ids: seq<StudentId>, teacher: Option<TeacherId>,
                                      className: string, section: string, subject: string, date: int, now: int)
    requires Creatable(teacher, className, section, subject)
    ensures var r := Fill(records, ids, teacher, className, section, subject, date, now);
            r.completed && forall s :: s in ids ==> HasSlot(r.records, s, date, subject)
    decreases |ids|
  {
    if ids != [] {
      var added := MarkOne(records, ids[0], teacher.value, className, section, subject, date, now);
      FillStep(records, ids, teacher, className, section, subject, date, now);
      FillCovers(added, ids[1..], teacher, className, section, subject, date, now);
      var r := Fill(added, ids[1..], teacher, className, section, subject, date, now);
      assert r.records == added + r.records[|added|..];
      HasSlotExtend(added, r.records[|added|..], ids[0], date, subject);
      assert forall s :: s in ids ==> s == ids[0] || s in ids[1..];
    }
  }

  /** When every listed student already has a record, the run adds nothing. */
  lemma {:induction false} FillAllMarked(records: seq<Record>, ids: seq<StudentId>, teacher: Option<TeacherId>,
                                         className: string, section: string, subject: string, date: int, now: int)
    requires forall s :: s in ids ==> HasSlot(records, s, date, subject)
    ensures Fill(records, ids, teacher, className, section, subject, date, now) == FillResult(records, true)
  {
    if ids != [] {
      assert ids[0] in ids;
      FillAllMarked(records, ids[1..], teacher, className, section, subject, date, now);
    }
  }

  /** A second run right after a completed one adds nothing. */
  lemma FillIdempotent(records: seq<Record>, ids: seq<StudentId>, teacher: Option<TeacherId>,
                       className: string, section: string, subject: string, date: int, now: int, later: int)
    requires Creatable(teacher, className, section, subject)
    ensures var r := Fill(records, ids, teacher, className, section, subject, date, now);
            Fill(r.records, ids, teacher, className, section, subject, date, later) == FillResult(r.records, true)
  {
    var r := Fill(records, ids, teacher, className, section, subject, date, now);
    FillCovers(records, ids, teacher, className, section, subject, date, now);
    FillAllMarked(r.records, ids, teacher, className, section, subject, date, later);
  }

  /** The run never creates a second record for a (student, date, subject). */
  lemma {:induction false} FillKeepsUnique(records: seq<Record>, ids: seq<StudentId>, teacher: Option<TeacherId>,
                                           className: string, section: string, subject: string, date: int, now: int)
    requires UniqueSlots(records)
    ensures UniqueSlots(Fill(records, ids, teacher, className, section, subject, date, now).records)
    decreases |ids|
  {
    if ids != [] && !HasSlot(records, ids[0], date, subject) && Creatable(teacher, className, section, subject) {
      var x := Absentee(ids[0], teacher.value, className, section, subject, date, now);
      AppendFreeSlot(records, x);
      FillKeepsUnique(records + [x], ids[1..], teacher, className, section, subject, date, now);
    } else if ids != [] && HasSlot(records, ids[0], date, subject) {
      FillKeepsUnique(records, ids[1..], teacher, className, section, subject, date, now);
    }
  }

  /** As written, `create` is given `teacher: null`: the run stores nothing,
      and it completes only when every listed student was already marked. */
  lemma {:induction false} NullTeacherStoresNothing(records: seq<Record>, ids: seq<StudentId>, className: string,
                                                    section: string, subject: string, date: int, now: int)
    ensures var r := Fill(records, ids, None, className, section, subject, date, now);
            r.records == records &&
            (r.completed <==> forall s :: s in ids ==> HasSlot(records, s, date, subject))
  {
    if ids != [] {
      NullTeacherStoresNothing(records, ids[1..], className, section, subject, date, now);
      assert ids == [ids[0]] + ids[1..];
    }
  }

  /** A class with one unmarked student: as written, that student stays unmarked. */
  lemma NullTeacherLeavesStudentUnmarked()
    ensures var students := [Student("Asha", "10", "A")];
            var ids := ClassRoster(students, "10", "A");
            var r := Fill([], ids, None, "10", "A", "Maths", 0, 0);
            ids == [0] && !r.completed && !HasSlot(r.records, 0, 0, "Maths")
  {
    var students := [Student("Asha", "10", "A")];
    assert students[..0] == [];
    assert ClassRoster(students, "10", "A") == [0];
    NullTeacherStoresNothing([], [0], "10", "A", "Maths", 0, 0);
  }

  /** autoMarkAbsentees(date, class, section, subject), with the teacher id
      given to `create` as a parameter (None is the `null` of the source). */
  method AutoMarkAbsentees(store: Store, date: int, className: string, section: string, subject: string,
                           teacher: Option<TeacherId>, now: int) returns (completed: bool)
    requires store.Valid()
    modifies store
    ensures store.Valid()
    ensures FillResult(store.records, completed) ==
              Fill(old(store.records), ClassRoster(old(store.students), className, section),
                   teacher, className, section, subject, date, now)
    ensures store.students == old(store.students) && store.teachers == old(store.teachers)
    ensures store.holidays == old(store.holidays)
  {
    var ids := ClassRoster(store.students, className, section);
    var i := 0;
    while i < |ids|
      invariant 0 <= i <= |ids|
      invariant store.Valid()
      invariant store.students == old(store.students) && store.teachers == old(store.teachers)
      invariant store.holidays == old(store.holidays)
      invariant Fill(store.records, ids[i..], teacher, className, section, subject, date, now) ==
                Fill(old(store.records), ids, teacher, className, section, subject, date, now)
    {
      assert ids[i..][0] == ids[i] && ids[i..][1..] == ids[i + 1..];
      if !HasSlot(store.records, ids[i], date, subject) {
        if !Creatable(teacher, className, section, subject) {
          return false;
        }
        var x := Absentee(ids[i], teacher.value, className, section, subject, date, now);
        AppendFreeSlot(store.records, x);
        store.records := store.records + [x];
      }
      i := i + 1;
    }
    completed := true;
  }

  /** With a teacher id, a run marks every student of the class and section,
      leaves earlier records as they were, and adds only Absent, auto-marked
      records for that date and subject. */
  lemma AutoMarkCovers(students: seq<Student>, records: seq<Record>, date: int, className: string,
                       section: string, subject: string, teacher: TeacherId, now: int)
    requires RequiredPresent(className, section, subject)
    ensures var r := Fill(records, ClassRoster(students, className, section), Some(teacher),
                          className, section, subject, date, now);
            && r.completed
            && (forall k: StudentId ::
                  (k < |students| && students[k].className == className && students[k].section == section) ==>
                  HasSlot(r.records, k, date, subject))
            && r.records[..|records|] == records
            && (forall k :: |records| <= k < |r.records| ==>
                  r.records[k].status == Absent && r.records[k].autoMarked &&
                  r.records[k].date == date && r.records[k].subject == subject)
  {
    var ids := ClassRoster(students, className, section);
    FillCovers(records, ids, Some(teacher), className, section, subject, date, now);
  }
}

=== FILE: attendance_model.dfy ===
/**
 * The attendance service's documents (models/Student.js, Teacher.js,
 * Holiday.js, Attendance.js) and the store that replaces its database.
 * A document's id is its position in its collection; collections only grow.
 * The unique indexes of the schemas are invariants of the store:
 * (name, class) for students, date for holidays, and (student, date,
 * subject) for attendance records.
 */
module AttendanceModel {
  import opened Common

  /** The two values of the status enum (enums/attendanceStatus.js). */
  datatype Status = Present | Absent

  /** Mongoose's enum check: only the two spellings are accepted. */
  function ParseStatus(s: string): (r: Option<Status>)
    ensures r == Some(Present) <==> s == "Present"
    ensures r == Some(Absent) <==> s == "Absent"
    ensures r.None? <==> s != "Present" && s != "Absent"
  {
    if s == "Present" then Some(Present)
    else if s == "Absent" then Some(Absent)
    else None
  }

  type StudentId = nat
  type TeacherId = nat

  datatype Student = Student(name: string, className: string, section: string)

  /** A teacher may have no section; then it may mark any section of its class. */
  datatype Teacher = Teacher(name: string, className: string, section: Field, subjects: seq<string>)

  datatype Holiday = Holiday(date: int, description: Field)

  /** An attendance record: `date` is a day number, `createdAt` milliseconds. */
  datatype Record = Record(student: StudentId, teacher: TeacherId, className: string,
                           section: string, subject: string, date: int, status: Status,
                           autoMarked: bool, createdAt: int)

  /** `findOne({ student, date, subject })`. */
  function FindSlot(records: seq<Record>, student: StudentId, date: int, subject: string): Option<nat> {
    FirstIndex(records, (r: Record) => r.student == student && r.date == date && r.subject == subject)
  }

  predicate HasSlot(records: seq<Record>, student: StudentId, date: int, subject: string) {
    FindSlot(records, student, date, subject).Some?
  }

  /** `HasSlot` holds exactly when some record has that student, date and subject. */
  lemma HasSlotExact(records: seq<Record>, student: StudentId, date: int, subject: string)
    ensures HasSlot(records, student, date, subject) <==>
              exists k :: 0 <= k < |records| && records[k].student == student &&
                          records[k].date == date && records[k].subject == subject
  {
  }

  /** Appending one record adds exactly its own slot. */
  lemma HasSlotAppend(records: seq<Record>, r: Record, student: StudentId, date: int, subject: string)
    ensures HasSlot(records + [r], student, date, subject) <==>
              HasSlot(records, student, date, subject) ||
              (r.student == student && r.date == date && r.subject == subject)
  {
    HasSlotExact(records, student, date, subject);
    HasSlotExact(records + [r], student, date, subject);
    if HasSlot(records, student, date, subject) {
      var k :| 0 <= k < |records| && records[k].student == student &&
               records[k].date == date && records[k].subject == subject;
      assert (records + [r])[k] == records[k];
    }
    if r.student == student && r.date == date && r.subject == subject {
      assert (records + [r])[|records|] == r;
    }
  }

  /** A slot, once taken, stays taken as the collection grows. */
  lemma HasSlotExtend(records: seq<Record>, more: seq<Record>, student: StudentId, date: int, subject: string)
    requires HasSlot(records, student, date, subject)
    ensures HasSlot(records + more, student, date, subject)
  {
    HasSlotExact(records, student, date, subject);
    HasSlotExact(records + more, student, date, subject);
    var k :| 0 <= k < |records| && records[k].student == student &&
             records[k].date == date && records[k].subject == subject;
    assert (records + more)[k] == records[k];
  }

  ghost predicate UniqueSlots(records: seq<Record>) {
    forall i, j :: 0 <= i < j < |records| ==>
      !(records[i].student == records[j].student && records[i].date == records[j].date &&
        records[i].subject == records[j].subject)
  }

  ghost predicate UniqueNameClass(students: seq<Student>) {
    forall i, j :: 0 <= i < j < |students| ==>
      !(students[i].name == students[j].name && students[i].className == students[j].className)
  }

  /** Appending a student whose (name, class) is new keeps the pairs unique. */
  lemma AppendNewStudent(students: seq<Student>, st: Student)
    requires UniqueNameClass(students)
    requires forall k :: 0 <= k < |students| ==> !(students[k].name == st.name && students[k].className == st.className)
    ensures UniqueNameClass(students + [st])
  {
  }

  ghost predicate UniqueHolidayDates(holidays: seq<Holiday>) {
    forall i, j :: 0 <= i < j < |holidays| ==> holidays[i].date != holidays[j].date
  }

  /** Appending a record for a free slot keeps the slots unique. */
  lemma AppendFreeSlot(records: seq<Record>, r: Record)
    requires UniqueSlots(records)
    requires !HasSlot(records, r.student, r.date, r.subject)
    ensures UniqueSlots(records + [r])
  {
  }

  /** The service's collections. */
  class Store {
    var students: seq<Student>
    var teachers: seq<Teacher>
    var holidays: seq<Holiday>
    var records: seq<Record>

    ghost predicate Valid()
      reads this
    {
      UniqueNameClass(students) && UniqueHolidayDates(holidays) && UniqueSlots(records)
    }

    constructor ()
      ensures Valid()
      ensures students == [] && teachers == [] && holidays == [] && records == []
    {
      students, teachers, holidays, records := [], [], [], [];
    }
  }
}

=== FILE: attendance_queries.dfy ===
/**
 * The reading side of the attendance controller
 * (basicCode/03/backend/controllers/attendaceController.js, `getAttendance`)
 * and the aggregation shared with the student controller's `getStudents`.
 *
 * An aggregation is: keep the records a `$match` selects; group them by
 * student (`$group`, groups in order of first appearance); then join each
 * group with its student document (`$lookup` + `$unwind`), which drops the
 * groups whose student does not exist. Percentages are integers: a student
 * is at or above 70% when 100 * present >= 70 * total.
 */
module AttendanceQueries {
  import opened Common
  import opened Sorting
  import opened Calendar
  import opened AttendanceModel

  // ---------------------------------------------------------------------
  // Grouping by student
  // ---------------------------------------------------------------------

  /** The students of `rs`, each once, in order of first appearance. */
  function DistinctStudents(rs: seq<Record>): (ids: seq<StudentId>)
    ensures forall i, j :: 0 <= i < j < |ids| ==> ids[i] != ids[j]
    ensures forall k :: 0 <= k < |rs| ==> rs[k].student in ids
    ensures forall s :: s in ids ==> exists k :: 0 <= k < |rs| && rs[k].student == s
    decreases |rs|
  {
    if rs == [] then []
    else
      var n := |rs| - 1;
      var earlier := DistinctStudents(rs[..n]);
      if rs[n].student in earlier then earlier else earlier + [rs[n].student]
  }

  /** `{ $sum: 1 }` over one student's records. */
  function CountFor(rs: seq<Record>, s: StudentId): nat {
    CountWhere(rs, (r: Record) => r.student == s)
  }

  /** `{ $sum: { $cond: [{ $eq: ["$status", "Present"] }, 1, 0] } }` over one student's records. */
  function PresentFor(rs: seq<Record>, s: StudentId): nat {
    CountWhere(rs, (r: Record) => r.student == s && r.status == Present)
  }

  lemma CountForPositive(rs: seq<Record>, s: StudentId)
    ensures CountFor(rs, s) > 0 <==> s in DistinctStudents(rs)
  {
    var p := (r: Record) => r.student == s;
    if CountFor(rs, s) > 0 {
      var r :| r in rs && p(r);
      var k :| 0 <= k < |rs| && rs[k] == r;
    }
    if s in DistinctStudents(rs) {
      var k :| 0 <= k < |rs| && rs[k].student == s;
      assert p(rs[k]);
    }
  }

  lemma PresentWithinTotal(rs: seq<Record>, s: StudentId)
    ensures PresentFor(rs, s) <= CountFor(rs, s)
  {
    CountWhereMono(rs, (r: Record) => r.student == s && r.status == Present, (r: Record) => r.student == s);
  }

  /** Every grouped student has a positive total that bounds its present count. */
  lemma GroupedCounts(rs: seq<Record>)
    ensures forall s :: s in DistinctStudents(rs) ==> 0 < CountFor(rs, s) && PresentFor(rs, s) <= CountFor(rs, s)
  {
    forall s | s in DistinctStudents(rs) ensures 0 < CountFor(rs, s) && PresentFor(rs, s) <= CountFor(rs, s) {
      CountForPositive(rs, s);
      PresentWithinTotal(rs, s);
    }
  }

  /** One `$group` output with a single counter. */
  datatype Tally = Tally(student: StudentId, count: nat)

  /** One group per student with a record, none of them empty. */
  function Tallies(rs: seq<Record>): (r: seq<Tally>)
    ensures |r| == |DistinctStudents(rs)|
    ensures forall i, j :: 0 <= i < j < |r| ==> r[i].student != r[j].student
    ensures forall t :: t in r ==> t.count > 0
  {
    var ids := DistinctStudents(rs);
    GroupedCounts(rs);
    seq(|ids|, i requires 0 <= i < |ids| => Tally(ids[i], CountFor(rs, ids[i])))
  }

  /** There is a group for exactly the students with a record, and each group
      counts all of that student's records. */
  lemma TalliesExact(rs: seq<Record>)
    ensures forall t :: t in Tallies(rs) ==> t.count == CountFor(rs, t.student) && t.count > 0
    ensures forall s :: CountFor(rs, s) > 0 ==> Tally(s, CountFor(rs, s)) in Tallies(rs)
  {
    var ids := DistinctStudents(rs);
    var ts := Tallies(rs);
    forall t | t in ts ensures t.count == CountFor(rs, t.student) && t.count > 0 {
      var i :| 0 <= i < |ts| && ts[i] == t;
      CountForPositive(rs, ids[i]);
    }
    forall s | CountFor(rs, s) > 0 ensures Tally(s, CountFor(rs, s)) in ts {
      CountForPositive(rs, s);
      var i :| 0 <= i < |ids| && ids[i] == s;
      assert ts[i] == Tally(s, CountFor(rs, s));
    }
  }

  /** A `$group` output with the two counters of the percentage stages. */
  datatype Share = Share(student: StudentId, present: nat, total: nat)

  /** One group per student with a record; a group's present count never
      exceeds its (positive) total. */
  function Shares(rs: seq<Record>): (r: seq<Share>)
    ensures |r| == |DistinctStudents(rs)|
    ensures forall i, j :: 0 <= i < j < |r| ==> r[i].student != r[j].student
    ensures forall sh :: sh in r ==> 0 < sh.total && sh.present <= sh.total
  {
    var ids := DistinctStudents(rs);
    GroupedCounts(rs);
    seq(|ids|, i requires 0 <= i < |ids| => Share(ids[i], PresentFor(rs, ids[i]), CountFor(rs, ids[i])))
  }

  lemma SharesExact(rs: seq<Record>)
    ensures forall sh :: sh in Shares(rs) ==>
              sh.total == CountFor(rs, sh.student) && sh.present == PresentFor(rs, sh.student) &&
              0 < sh.total && sh.present <= sh.total
    ensures forall s :: CountFor(rs, s) > 0 ==> Share(s, PresentFor(rs, s), CountFor(rs, s)) in Shares(rs)
  {
    var ids := DistinctStudents(rs);
    var shs := Shares(rs);
    forall sh | sh in shs
      ensures sh.total == CountFor(rs, sh.student) && sh.present == PresentFor(rs, sh.student)
      ensures 0 < sh.total && sh.present <= sh.total
    {
      var i :| 0 <= i < |shs| && shs[i] == sh;
      CountForPositive(rs, ids[i]);
      PresentWithinTotal(rs, ids[i]);
    }
    forall s | CountFor(rs, s) > 0 ensures Share(s, PresentFor(rs, s), CountFor(rs, s)) in shs {
      CountForPositive(rs, s);
      var i :| 0 <= i < |ids| && ids[i] == s;
      assert shs[i] == Share(s, PresentFor(rs, s), CountFor(rs, s));
    }
  }

  // ---------------------------------------------------------------------
  // $lookup + $unwind
  // ---------------------------------------------------------------------

  /** A group together with its student document. */
  datatype Joined<G> = Joined(group: G, doc: Student)

  /** Join each group with the student it is about; groups whose student does
      not exist are dropped. */
  function Lookup<G(!new)>(gs: seq<G>, id: G -> StudentId, students: seq<Student>): (r: seq<Joined<G>>)
    ensures |r| <= |gs|
    ensures forall j :: j in r ==> j.group in gs && id(j.group) < |students| && j.doc == students[id(j.group)]
    ensures forall g :: g in gs && id(g) < |students| ==> Joined(g, students[id(g)]) in r
    ensures (forall g :: g in gs ==> id(g) < |students|) ==> |r| == |gs|
  {
    if gs == [] then []
    else
      var rest := Lookup(gs[1..], id, students);
      assert forall g :: g in gs ==> g == gs[0] || g in gs[1..];
      if id(gs[0]) < |students| then [Joined(gs[0], students[id(gs[0])])] + rest else rest
  }

  /** The join keeps the order of the groups. */
  lemma {:induction false} LookupKeepsOrder<G(!new)>(gs: seq<G>, id: G -> StudentId, students: seq<Student>,
                                                     key: G -> int)
    requires SortedBy(gs, key)
    ensures SortedBy(Lookup(gs, id, students), (j: Joined<G>) => key(j.group))
  {
    if gs != [] {
      var rest := Lookup(gs[1..], id, students);
      LookupKeepsOrder(gs[1..], id, students, key);
      if id(gs[0]) < |students| {
        var r := [Joined(gs[0], students[id(gs[0])])] + rest;
        forall j | 0 < j < |r| ensures key(r[0].group) <= key(r[j].group) {
          assert r[j] in rest;
          var k :| 0 <= k < |gs[1..]| && gs[1..][k] == r[j].group;
          assert gs[k + 1] == r[j].group;
        }
      }
    }
  }

  // ---------------------------------------------------------------------
  // top3: the three students most often present in a class/section/week
  // ---------------------------------------------------------------------

  predicate PresentInWeek(r: Record, className: string, section: string, year: int, week: int) {
    r.className == className && r.section == section && WeekWindow(year, week).Contains(r.date) &&
    r.status == Present
  }

  function WeekPresences(records: seq<Record>, className: string, section: string, year: int, week: int): seq<Record> {
    Filter(records, (r: Record) => PresentInWeek(r, className, section, year, week))
  }

  function ByCountDescending(t: Tally): int { -(t.count as int) }

  function StudentOf(t: Tally): StudentId { t.student }

  function Min(a: int, b: int): int { if a < b then a else b }

  /** `$sort: { presentCount: -1 }` then `$limit: 3`, then the join. */
  function Top3(records: seq<Record>, students: seq<Student>, className: string, section: string,
                year: int, week: int): (r: seq<Joined<Tally>>)
    ensures |r| <= 3
  {
    var sorted := SortBy(Tallies(WeekPresences(records, className, section, year, week)), ByCountDescending);
    Lookup(sorted[..Min(3, |sorted|)], StudentOf, students)
  }

  /** Each of the three leading groups whose student exists is in the answer. */
  lemma Top3KeepsLeaders(records: seq<Record>, students: seq<Student>, className: string, section: string,
                         year: int, week: int, t: Tally)
    requires t.student < |students|
    requires var sorted := SortBy(Tallies(WeekPresences(records, className, section, year, week)), ByCountDescending);
             t in sorted[..Min(3, |sorted|)]
    ensures Joined(t, students[t.student]) in Top3(records, students, className, section, year, week)
  {
  }

  /** Nothing is lost but missing students: when every student present that
      week exists, the answer has min(3, number of such students) entries. */
  lemma Top3Size(records: seq<Record>, students: seq<Student>, className: string, section: string,
                 year: int, week: int)
    requires forall s: StudentId :: PresentCount(records, className, section, year, week, s) > 0 ==> s < |students|
    ensures |Top3(records, students, className, section, year, week)| ==
              Min(3, |DistinctStudents(WeekPresences(records, className, section, year, week))|)
  {
    var matched := WeekPresences(records, className, section, year, week);
    var ts := Tallies(matched);
    var sorted := SortBy(ts, ByCountDescending);
    var top := sorted[..Min(3, |sorted|)];
    assert |sorted| == |ts| by {
      assert |multiset(sorted)| == |multiset(ts)|;
    }
    forall g | g in top ensures StudentOf(g) < |students| {
      assert g in multiset(sorted);
      assert g in ts;
      TalliesExact(matched);
      assert PresentCount(records, className, section, year, week, g.student) > 0;
    }
  }

  /** Every entry of the answer is one of the week's groups. */
  lemma Top3FromTallies(records: seq<Record>, students: seq<Student>, className: string, section: string,
                        year: int, week: int, j: Joined<Tally>)
    requires j in Top3(records, students, className, section, year, week)
    ensures j.group in Tallies(WeekPresences(records, className, section, year, week))
  {
    var ts := Tallies(WeekPresences(records, className, section, year, week));
    var sorted := SortBy(ts, ByCountDescending);
    assert j.group in sorted[..Min(3, |sorted|)];
    assert j.group in multiset(sorted);
  }

  /** The number of Present records of a student in the class, section and week. */
  function PresentCount(records: seq<Record>, className: string, section: string, year: int, week: int,
                        s: StudentId): nat {
    CountFor(WeekPresences(records, className, section, year, week), s)
  }

  /** Each returned count is that student's number of Present records in the
      class, section and week, and it belongs to an existing student. */
  lemma Top3Counts(records: seq<Record>, students: seq<Student>, className: string, section: string,
                   year: int, week: int, j: Joined<Tally>)
    requires j in Top3(records, students, className, section, year, week)
    ensures j.group.student < |students| && j.doc == students[j.group.student]
    ensures j.group.count == PresentCount(records, className, section, year, week, j.group.student)
    ensures j.group.count > 0
  {
    Top3FromTallies(records, students, className, section, year, week, j);
    TalliesExact(WeekPresences(records, className, section, year, week));
  }

  /** The entries come in non-increasing count. */
  lemma Top3Descending(records: seq<Record>, students: seq<Student>, className: string, section: string,
                       year: int, week: int)
    ensures var r := Top3(records, students, className, section, year, week);
            forall i, j :: 0 <= i < j < |r| ==> r[i].group.count >= r[j].group.count
  {
    var sorted := SortBy(Tallies(WeekPresences(records, className, section, year, week)), ByCountDescending);
    var top := sorted[..Min(3, |sorted|)];
    LookupKeepsOrder(top, StudentOf, students, ByCountDescending);
    var r := Lookup(top, StudentOf, students);
    assert SortedBy(r, (j: Joined<Tally>) => ByCountDescending(j.group));
  }

  /** No existing student left out of the answer was present more often than
      any student in it. */
  lemma Top3NoneHigherOmitted(records: seq<Record>, students: seq<Student>, className: string, section: string,
                              year: int, week: int, s: StudentId, e: Joined<Tally>)
    requires s < |students|
    requires forall j :: j in Top3(records, students, className, section, year, week) ==> j.group.student != s
    requires e in Top3(records, students, className, section, year, week)
    ensures PresentCount(records, className, section, year, week, s) <= e.group.count
  {
    var matched := WeekPresences(records, className, section, year, week);
    var ts := Tallies(matched);
    var sorted := SortBy(ts, ByCountDescending);
    var top := sorted[..Min(3, |sorted|)];
    var c := CountFor(matched, s);
    if c > 0 {
      TalliesExact(matched);
      var t := Tally(s, c);
      assert t in multiset(ts);
      assert t in sorted;
      assert t !in top;
      PrefixDominates(sorted, ByCountDescending, Min(3, |sorted|), e.group, t);
    }
  }

  // ---------------------------------------------------------------------
  // absentAlerts: students absent at least three times in a week
  // ---------------------------------------------------------------------

  /** No class or section condition: every record of the week counts. */
  predicate AbsentInWeek(r: Record, year: int, week: int) {
    WeekWindow(year, week).Contains(r.date) && r.status == Absent
  }

  function WeekAbsences(records: seq<Record>, year: int, week: int): seq<Record> {
    Filter(records, (r: Record) => AbsentInWeek(r, year, week))
  }

  predicate Alarming(t: Tally) { t.count >= 3 }

  /** Only existing students with at least three absences are alerted. */
  function AbsentAlerts(records: seq<Record>, students: seq<Student>, year: int, week: int): (r: seq<Joined<Tally>>)
    ensures forall j :: j in r ==>
              j.group.count >= 3 && j.group.student < |students| && j.doc == students[j.group.student]
  {
    Lookup(Filter(Tallies(WeekAbsences(records, year, week)), Alarming), StudentOf, students)
  }

  /** An existing student is alerted exactly when it has at least three
      Absent records in the week, with the count of them. */
  lemma AbsentAlertsExact(records: seq<Record>, students: seq<Student>, year: int, week: int, s: StudentId)
    ensures (exists j :: j in AbsentAlerts(records, students, year, week) && j.group.student == s) <==>
              s < |students| && CountFor(WeekAbsences(records, year, week), s) >= 3
    ensures forall j :: j in AbsentAlerts(records, students, year, week) ==>
              j.group.count == CountFor(WeekAbsences(records, year, week), j.group.student)
  {
    var absences := WeekAbsences(records, year, week);
    var ts := Tallies(absences);
    TalliesExact(absences);
    var c := CountFor(absences, s);
    if s < |students| && c >= 3 {
      var t := Tally(s, c);
      assert Alarming(t) && t in ts;
      assert Joined(t, students[s]) in AbsentAlerts(records, students, year, week);
    }
  }

  // ---------------------------------------------------------------------
  // performance / above70: shares of Present in a class/section/month
  // ---------------------------------------------------------------------

  /** `date: { $gte: new Date(year, month - 1, 1), $lte: new Date(year, month, 0, 23, 59, 59) }`. */
  predicate InMonth(r: Record, className: string, section: string, year: int, month: int) {
    r.className == className && r.section == section &&
    MonthFirstDay(year, month) <= r.date <= MonthLastDay(year, month)
  }

  function MonthRecords(records: seq<Record>, className: string, section: string, year: int, month: int): seq<Record> {
    Filter(records, (r: Record) => InMonth(r, className, section, year, month))
  }

  /** `percent >= 70` with the percentage `present / total * 100` kept exact. */
  predicate AtLeast70(sh: Share) { 100 * sh.present >= 70 * sh.total }

  function ShareStudent(sh: Share): StudentId { sh.student }

  /** Each row joins an existing student's document to its month counts. */
  function Performance(records: seq<Record>, students: seq<Student>, className: string, section: string,
                       year: int, month: int): (r: seq<Joined<Share>>)
    ensures forall j :: j in r ==>
              j.group.student < |students| && j.doc == students[j.group.student] &&
              0 < j.group.total && j.group.present <= j.group.total
  {
    Lookup(Shares(MonthRecords(records, className, section, year, month)), ShareStudent, students)
  }

  /** Each row is an existing student at or above 70%. */
  function Above70(records: seq<Record>, students: seq<Student>, className: string, section: string,
                   year: int, month: int): (r: seq<Joined<Share>>)
    ensures forall j :: j in r ==>
              AtLeast70(j.group) && j.group.student < |students| && j.doc == students[j.group.student] &&
              0 < j.group.total
  {
    Lookup(Filter(Shares(MonthRecords(records, className, section, year, month)), AtLeast70), ShareStudent, students)
  }

  /** Every existing student with records that month is listed once with its
      present and total counts; no other is. */
  lemma PerformanceExact(records: seq<Record>, students: seq<Student>, className: string, section: string,
                         year: int, month: int, s: StudentId)
    ensures var rs := MonthRecords(records, className, section, year, month);
            (exists j :: j in Performance(records, students, className, section, year, month) && j.group.student == s)
              <==> s < |students| && CountFor(rs, s) > 0
    ensures var rs := MonthRecords(records, className, section, year, month);
            forall j :: j in Performance(records, students, className, section, year, month) ==>
              j.group.total == CountFor(rs, j.group.student) && j.group.present == PresentFor(rs, j.group.student) &&
              j.group.present <= j.group.total
  {
    var rs := MonthRecords(records, className, section, year, month);
    SharesExact(rs);
    if s < |students| && CountFor(rs, s) > 0 {
      var sh := Share(s, PresentFor(rs, s), CountFor(rs, s));
      assert Joined(sh, students[s]) in Performance(records, students, className, section, year, month);
    }
  }

  /** Exactly the existing students whose Present share of their records that
      month is at least 70% are listed. */
  lemma Above70Exact(records: seq<Record>, students: seq<Student>, className: string, section: string,
                     year: int, month: int, s: StudentId)
    ensures var rs := MonthRecords(records, className, section, year, month);
            (exists j :: j in Above70(records, students, className, section, year, month) && j.group.student == s)
              <==> s < |students| && CountFor(rs, s) > 0 && 100 * PresentFor(rs, s) >= 70 * CountFor(rs, s)
  {
    var rs := MonthRecords(records, className, section, year, month);
    SharesExact(rs);
    if s < |students| && CountFor(rs, s) > 0 && 100 * PresentFor(rs, s) >= 70 * CountFor(rs, s) {
      var sh := Share(s, PresentFor(rs, s), CountFor(rs, s));
      assert AtLeast70(sh);
      assert Joined(sh, students[s]) in Above70(records, students, className, section, year, month);
    }
  }

  // ---------------------------------------------------------------------
  // trends: one student's counts in a month
  // ---------------------------------------------------------------------

  predicate StudentInMonth(r: Record, student: StudentId, year: int, month: int) {
    r.student == student && MonthFirstDay(year, month) <= r.date <= MonthLastDay(year, month)
  }

  /** The filter of the second `countDocuments`: the student's records in the month. */
  function MonthOf(student: StudentId, year: int, month: int): Record -> bool {
    (x: Record) => StudentInMonth(x, student, year, month)
  }

  /** The filter of the first `countDocuments`: the same records with status Present. */
  function PresentMonthOf(student: StudentId, year: int, month: int): Record -> bool {
    (x: Record) => StudentInMonth(x, student, year, month) && x.status == Present
  }

  /** The two `countDocuments` of the trends branch: Present records and all
      records of the student in the month, whatever the class. */
  function Trend(records: seq<Record>, student: StudentId, year: int, month: int): (r: (nat, nat))
    ensures r.0 <= r.1 <= |records|
    ensures r.1 == 0 <==> forall x :: x in records ==> !StudentInMonth(x, student, year, month)
  {
    var present := CountWhere(records, PresentMonthOf(student, year, month));
    var total := CountWhere(records, MonthOf(student, year, month));
    CountWhereMono(records, PresentMonthOf(student, year, month), MonthOf(student, year, month));
    (present, total)
  }

  /** Storing one more record moves the trend by that record alone: the total
      by one when it is the student's in that month (`MonthOf`), the present
      count by one when it is also Present (`PresentMonthOf`). With
      `Trend([]) == (0, 0)` this determines the counts of every collection. */
  lemma TrendAppend(records: seq<Record>, x: Record, student: StudentId, year: int, month: int)
    ensures Trend(records + [x], student, year, month).0 ==
              Trend(records, student, year, month).0 + (if PresentMonthOf(student, year, month)(x) then 1 else 0)
    ensures Trend(records + [x], student, year, month).1 ==
              Trend(records, student, year, month).1 + (if MonthOf(student, year, month)(x) then 1 else 0)
  {
    CountWhereAppend(records, x, PresentMonthOf(student, year, month));
    CountWhereAppend(records, x, MonthOf(student, year, month));
  }

  /** The two filters of `TrendAppend`, spelled out. */
  lemma TrendFilters(x: Record, student: StudentId, year: int, month: int)
    ensures MonthOf(student, year, month)(x) <==> StudentInMonth(x, student, year, month)
    ensures PresentMonthOf(student, year, month)(x) <==> StudentInMonth(x, student, year, month) && x.status == Present
  {
  }

  // ---------------------------------------------------------------------
  // GET /attendance: the first branch whose parameters are all given
  // ---------------------------------------------------------------------

  /** The query string. A numeric parameter is None when absent; a given one
      is a non-empty string and so always truthy. */
  datatype AttendanceQuery = AttendanceQuery(
    trends: Field, studentId: Option<StudentId>, className: Field, section: Field,
    week: Option<int>, year: Option<int>, month: Option<int>,
    top3: Field, performance: Field, above70: Field, absentAlerts: Field)

  datatype AttendanceAnswer =
    | TrendCounts(present: nat, total: nat)
    | TopPresent(entries: seq<Joined<Tally>>)
    | Percentages(rows: seq<Joined<Share>>)
    | Alerts(alerted: seq<Joined<Tally>>)
    | AllRecords(records: seq<Record>)
    /** 500: a missing year or month turns the trends dates invalid and the count throws. */
    | FetchError

  /** The trends branch: a truthy `trends` and a student id. */
  predicate TrendsAsked(q: AttendanceQuery) {
    Truthy(q.trends) && q.studentId.Some?
  }

  /** The top-3 branch: `top3`, class, section, week and year all given. */
  predicate Top3Asked(q: AttendanceQuery) {
    Truthy(q.top3) && Truthy(q.className) && Truthy(q.section) && q.week.Some? && q.year.Some?
  }

  /** What the performance and above70 branches both need. */
  predicate ClassMonthGiven(q: AttendanceQuery) {
    Truthy(q.className) && Truthy(q.section) && q.month.Some? && q.year.Some?
  }

  /** The absent-alerts branch: `absentAlerts`, week and year given. */
  predicate AlertsAsked(q: AttendanceQuery) {
    Truthy(q.absentAlerts) && q.week.Some? && q.year.Some?
  }

  /** The branches are tried in order; the first whose parameters are all
      given decides the answer. */
  function GetAttendance(records: seq<Record>, students: seq<Student>, q: AttendanceQuery): (a: AttendanceAnswer)
    ensures TrendsAsked(q) && q.year.Some? && q.month.Some? ==>
              var t := Trend(records, q.studentId.value, q.year.value, q.month.value);
              a == TrendCounts(t.0, t.1)
    ensures TrendsAsked(q) && !(q.year.Some? && q.month.Some?) ==> a == FetchError
    ensures !TrendsAsked(q) && Top3Asked(q) ==>
              a == TopPresent(Top3(records, students, q.className.value, q.section.value, q.year.value, q.week.value))
    ensures !TrendsAsked(q) && !Top3Asked(q) && Truthy(q.performance) && ClassMonthGiven(q) ==>
              a == Percentages(Performance(records, students, q.className.value, q.section.value,
                                           q.year.value, q.month.value))
    ensures !TrendsAsked(q) && !Top3Asked(q) && !Truthy(q.performance) && Truthy(q.above70) &&
            ClassMonthGiven(q) ==>
              a == Percentages(Above70(records, students, q.className.value, q.section.value,
                                       q.year.value, q.month.value))
    ensures !TrendsAsked(q) && !Top3Asked(q) && !((Truthy(q.performance) || Truthy(q.above70)) && ClassMonthGiven(q)) &&
            AlertsAsked(q) ==>
              a == Alerts(AbsentAlerts(records, students, q.year.value, q.week.value))
    ensures a.AllRecords? <==>
              && !TrendsAsked(q)
              && !Top3Asked(q)
              && !((Truthy(q.performance) || Truthy(q.above70)) && ClassMonthGiven(q))
              && !AlertsAsked(q)
    ensures a.AllRecords? ==> a.records == records
  {
    if TrendsAsked(q) then
      if q.year.Some? && q.month.Some? then
        var t := Trend(records, q.studentId.value, q.year.value, q.month.value);
        TrendCounts(t.0, t.1)
      else FetchError
    else if Top3Asked(q) then
      TopPresent(Top3(records, students, q.className.value, q.section.value, q.year.value, q.week.value))
    else if Truthy(q.performance) && ClassMonthGiven(q) then
      Percentages(Performance(records, students, q.className.value, q.section.value, q.year.value, q.month.value))
    else if Truthy(q.above70) && ClassMonthGiven(q) then
      Percentages(Above70(records, students, q.className.value, q.section.value, q.year.value, q.month.value))
    else if AlertsAsked(q) then
      Alerts(AbsentAlerts(records, students, q.year.value, q.week.value))
    else AllRecords(records)
  }

  /** With both performance and above70 given, the performance branch wins and
      nothing is filtered. */
  lemma PerformanceShadowsAbove70(records: seq<Record>, students: seq<Student>, q: AttendanceQuery)
    requires !TrendsAsked(q) && !Top3Asked(q)
    requires Truthy(q.performance) && Truthy(q.above70) && ClassMonthGiven(q)
    ensures GetAttendance(records, students, q) ==
              Percentages(Performance(records, students, q.className.value, q.section.value, q.year.value, q.month.value))
  {
  }
}

=== FILE: calendar.dfy ===
/**
 * Day numbers for the date windows of the attendance service. A date is
 * an integer count of days since 1970-01-01; `new Date(year, monthIndex,
 * day)` becomes `DateDay(year, monthIndex, day)`, with JavaScript's rules:
 * a year 0..99 means 1900..1999, and an out-of-range month or day rolls
 * over into the neighbouring months and years. Time of day and time zones
 * are not modelled.
 */
module Calendar {

  /** Days from 1970-01-01 to the given proleptic Gregorian date (1 <= m <= 12). */
  function DaysFromCivil(y: int, m: int, d: int): int
    requires 1 <= m <= 12
  {
    var y2 := if m <= 2 then y - 1 else y;
    var era := y2 / 400;
    var yoe := y2 - era * 400;
    var mp := if m > 2 then m - 3 else m + 9;
    var doy := (153 * mp + 2) / 5 + d - 1;
    var doe := yoe * 365 + yoe / 4 - yoe / 100 + doy;
    era * 146097 + doe - 719468
  }

  /** The year the Date constructor actually uses. */
  function FullYear(year: int): int {
    if 0 <= year <= 99 then 1900 + year else year
  }

  /** `new Date(year, monthIndex, day)` as a day number. */
  function DateDay(year: int, monthIndex: int, day: int): (r: int)
    ensures 0 <= monthIndex < 12 ==> r == DaysFromCivil(FullYear(year), monthIndex + 1, 1) + day - 1
    ensures 0 <= year <= 99 && 0 <= monthIndex < 12 ==> r == DaysFromCivil(1900 + year, monthIndex + 1, 1) + day - 1
  {
    var y := FullYear(year) + monthIndex / 12;
    var m := monthIndex % 12;
    DaysFromCivil(y, m + 1, 1) + day - 1
  }

  /** Days roll over: the day argument is a plain offset. */
  lemma DayOffset(year: int, monthIndex: int, day: int, k: int)
    ensures DateDay(year, monthIndex, day + k) == DateDay(year, monthIndex, day) + k
  {
  }

  /** Months roll over: month index 12 + m of a year is month m of the next,
      as long as the two-digit rule does not separate the two years. */
  lemma MonthIndexRollsOver(year: int, monthIndex: int, day: int)
    requires FullYear(year) + 1 == FullYear(year + 1)
    ensures DateDay(year, monthIndex + 12, day) == DateDay(year + 1, monthIndex, day)
  {
    assert (monthIndex + 12) / 12 == monthIndex / 12 + 1;
    assert (monthIndex + 12) % 12 == monthIndex % 12;
  }

  lemma EpochIsDayZero()
    ensures DateDay(1970, 0, 1) == 0
  {
    assert FullYear(1970) == 1970 && 0 / 12 == 0 && 0 % 12 == 0;
    assert 1969 / 400 == 4 && (153 * 10 + 2) / 5 == 306 && 369 / 4 == 92 && 369 / 100 == 3;
  }

  // ---------------------------------------------------------------------
  // Week windows: [new Date(year, 0, 1 + (week - 1) * 7), new Date(year, 0, 1 + week * 7))
  // ---------------------------------------------------------------------

  /** A half-open range of days [start, end). */
  datatype Window = Window(start: int, end: int) {
    predicate Contains(day: int) { start <= day < end }
  }

  function WeekWindow(year: int, week: int): (w: Window)
    ensures w.end == w.start + 7
    ensures w.start == DateDay(year, 0, 1) + (week - 1) * 7
  {
    Window(DateDay(year, 0, 1 + (week - 1) * 7), DateDay(year, 0, 1 + week * 7))
  }

  /** Consecutive weeks meet exactly: week w ends where week w + 1 starts. */
  lemma WeeksTile(year: int, week: int)
    ensures WeekWindow(year, week).end == WeekWindow(year, week + 1).start
  {
  }

  /** The week of the year a day falls in (day 1..7 of the year is week 1). */
  function WeekOf(year: int, day: int): int {
    (day - DateDay(year, 0, 1)) / 7 + 1
  }

  /** Every day lies in exactly one week window of a given year. */
  lemma WeekOfIsUnique(year: int, week: int, day: int)
    ensures WeekWindow(year, week).Contains(day) <==> week == WeekOf(year, day)
  {
    var s := DateDay(year, 0, 1);
    var q := (day - s) / 7;
    var r := (day - s) % 7;
    assert day - s == 7 * q + r && 0 <= r < 7;
    if WeekWindow(year, week).Contains(day) {
      assert (week - 1) * 7 <= day - s < week * 7;
      assert (week - 1) * 7 <= 7 * q + r < week * 7;
      assert week - 1 <= q < week;
    }
  }

  // ---------------------------------------------------------------------
  // Month windows: [new Date(year, month - 1, 1), new Date(year, month, 0, 23, 59, 59)]
  // ---------------------------------------------------------------------

  /** The inclusive bounds the source queries with (`$gte start`, `$lte end`);
      with whole days the end is the last day of the month. */
  function MonthFirstDay(year: int, month: int): int { DateDay(year, month - 1, 1) }
  function MonthLastDay(year: int, month: int): int { DateDay(year, month, 0) }

  /** The same window as a half-open range ending at the next month's first day. */
  function MonthWindow(year: int, month: int): (w: Window)
    ensures forall day :: w.Contains(day) <==> MonthFirstDay(year, month) <= day <= MonthLastDay(year, month)
  {
    Window(MonthFirstDay(year, month), DateDay(year, month, 1))
  }

  /** One month's window ends where the next month number's window starts
      (month 13 of a year being January of the next). */
  lemma MonthsTile(year: int, month: int)
    ensures MonthWindow(year, month).end == MonthWindow(year, month + 1).start
  {
  }

  /** December rolls over into January of the next year, except where
      JavaScript's two-digit-year rule separates the years (99/100 and -1/0). */
  lemma YearsTile(year: int)
    requires year != 99 && year != -1
    ensures MonthWindow(year, 12).end == MonthWindow(year + 1, 1).start
  {
    assert FullYear(year) + 1 == FullYear(year + 1);
    assert 12 / 12 == 1 && 12 % 12 == 0 && 0 / 12 == 0 && 0 % 12 == 0;
    assert MonthWindow(year, 12).end == DaysFromCivil(FullYear(year) + 1, 1, 1);
    assert MonthWindow(year + 1, 1).start == DaysFromCivil(FullYear(year + 1), 1, 1);
  }

  /** At the 99/100 boundary the two windows leave a gap of a century. */
  lemma TwoDigitYearGap()
    ensures MonthWindow(99, 12).end != MonthWindow(100, 1).start
  {
    assert MonthWindow(99, 12).end == DaysFromCivil(2000, 1, 1);
    assert MonthWindow(100, 1).start == DaysFromCivil(100, 1, 1);
  }

  /** Days from 1970-01-01 to March 1 of the shifted year `y2` (the civil
      algorithm counts years from March so that February comes last). */
  function MarchBase(y2: int): int {
    var era := y2 / 400;
    var yoe := y2 - era * 400;
    era * 146097 + yoe * 365 + yoe / 4 - yoe / 100 - 719468
  }

  lemma DaysFromCivilSplit(y: int, m: int, d: int)
    requires 1 <= m <= 12
    ensures DaysFromCivil(y, m, d) ==
      MarchBase(if m <= 2 then y - 1 else y) + (153 * (if m > 2 then m - 3 else m + 9) + 2) / 5 + d - 1
  {
  }

  /** A March-to-March year has 365 or 366 days. */
  lemma MarchYearLength(y: int)
    ensures 365 <= MarchBase(y) - MarchBase(y - 1) <= 366
  {
    var e := (y - 1) / 400;
    var t := (y - 1) - e * 400;
    assert 0 <= t < 400;
    if t < 399 {
      assert y / 400 == e && y - e * 400 == t + 1;
      var q4, r4 := t / 4, t % 4;
      var q100, r100 := t / 100, t % 100;
      assert t == 4 * q4 + r4 && 0 <= r4 < 4;
      assert t == 100 * q100 + r100 && 0 <= r100 < 100;
      assert (t + 1) / 4 == (if r4 == 3 then q4 + 1 else q4);
      assert (t + 1) / 100 == (if r100 == 99 then q100 + 1 else q100);
      if r100 == 99 {
        assert t + 1 == 100 * (q100 + 1);
        assert r4 == 3;
      }
    } else {
      assert y / 400 == e + 1 && y - (e + 1) * 400 == 0;
    }
  }

  /** Consecutive first days of the month within a year are 28 to 31 days apart. */
  lemma MonthStep(y: int, m: int)
    requires 1 <= m <= 11
    ensures 28 <= DaysFromCivil(y, m + 1, 1) - DaysFromCivil(y, m, 1) <= 31
  {
    DaysFromCivilSplit(y, m, 1);
    DaysFromCivilSplit(y, m + 1, 1);
    if m == 2 {
      MarchYearLength(y);
    }
  }

  /** December 1 to January 1 is 31 days. */
  lemma DecemberStep(y: int)
    ensures DaysFromCivil(y + 1, 1, 1) - DaysFromCivil(y, 12, 1) == 31
  {
    DaysFromCivilSplit(y, 12, 1);
    DaysFromCivilSplit(y + 1, 1, 1);
  }

  /** The window of a month other than December runs between two first days of the same year. */
  lemma WithinYearWindow(year: int, month: int)
    requires year >= 100 && 1 <= month <= 11
    ensures MonthWindow(year, month).start == DaysFromCivil(year, month, 1)
    ensures MonthWindow(year, month).end == DaysFromCivil(year, month + 1, 1)
  {
    assert FullYear(year) == year;
    assert (month - 1) / 12 == 0 && (month - 1) % 12 == month - 1;
    assert month / 12 == 0 && month % 12 == month;
  }

  /** December's window runs to January 1 of the next year. */
  lemma DecemberWindow(year: int)
    requires year >= 100
    ensures MonthWindow(year, 12).start == DaysFromCivil(year, 12, 1)
    ensures MonthWindow(year, 12).end == DaysFromCivil(year + 1, 1, 1)
  {
    assert FullYear(year) == year;
    assert 11 / 12 == 0 && 11 % 12 == 11;
    assert 12 / 12 == 1 && 12 % 12 == 0;
  }

  /** Every month window of a year from 100 on spans 28 to 31 days. */
  lemma MonthLength(year: int, month: int)
    requires year >= 100 && 1 <= month <= 12
    ensures 28 <= MonthWindow(year, month).end - MonthWindow(year, month).start <= 31
  {
    if month < 12 {
      WithinYearWindow(year, month);
      MonthStep(year, month);
    } else {
      DecemberWindow(year);
      DecemberStep(year);
    }
  }
}

=== FILE: chat_store.dfy ===
/**
 * The real-time core of the chat back end (socket/socketHandler.js), with
 * the database and socket.io replaced by fields of one `ChatServer` object:
 *  - `users`: the user collection in natural (insertion) order;
 *  - `connected` / `socketUser`: the sockets admitted by the handshake gate
 *    and the decoded token stored on each (`socket.user`);
 *  - `rooms`: socket.io's room membership;
 *  - `log`: the message collection (append-only);
 *  - `sent`: every emit, in order, with the sockets it reaches.
 * Each event handler is one atomic method. socket.io itself is taken as
 * given: `socket.join(room)` inserts into the room's member set, and a
 * disconnecting socket leaves every room (an emptied room disappears).
 */
module ChatStore {
  import opened Common
  import opened TokenAuth
  import RoomKey

  type SocketId = string

  /** A user document: models/User.js (the schema has no password field). */
  datatype User = User(id: string, username: string, referralCode: string,
                       socketId: Option<SocketId>, isOnline: bool)

  /** A message document: models/Message.js. A `senderName` in the event
      payload is not part of the schema, so it is never stored or sent. */
  datatype Message = Message(senderId: string, receiverId: Option<string>,
                             room: string, content: Field, timestamp: int)

  /** What the server emits. */
  datatype Event =
    | UpdateUsers(roster: seq<User>)
    | GlobalMessage(msg: Message)
    | PrivateMessage(msg: Message)

  /** One emit and the sockets it reaches. */
  datatype Delivery = Delivery(to: set<SocketId>, event: Event)

  const Lounge := "Lounge"

  /** The unique index on `username`. */
  ghost predicate UniqueUsernames(users: seq<User>) {
    forall i, j :: 0 <= i < j < |users| ==> users[i].username != users[j].username
  }

  /** The room a global message goes to: its own room, or "Lounge" when the
      payload has none or an empty one. */
  function GlobalRoom(room: Field): (r: string)
    ensures !Truthy(room) ==> r == Lounge
    ensures Truthy(room) ==> r == room.value
  {
    if Truthy(room) then room.value else Lounge
  }

  /** The sockets joined to `room` (none if the room does not exist). */
  function Members(rooms: map<string, set<SocketId>>, room: string): set<SocketId> {
    if room in rooms then rooms[room] else {}
  }

  // ---------------------------------------------------------------------
  // Presence: the two user-collection updates of the handlers
  // ---------------------------------------------------------------------

  /** `join-network`: the user found by `findOne({ username })`, if any,
      becomes online and bound to this socket. */
  function JoinNetworkUsers(users: seq<User>, username: string, sid: SocketId): (r: seq<User>)
    ensures |r| == |users|
    ensures forall j :: 0 <= j < |r| ==> r[j].username == users[j].username
    ensures forall i :: 0 <= i < |users| && users[i].username == username &&
                        (forall j :: 0 <= j < i ==> users[j].username != username) ==>
              r[i] == users[i].(isOnline := true, socketId := Some(sid))
    ensures forall i, j :: 0 <= i < j < |users| && users[i].username == username ==> r[j] == users[j]
    ensures forall j :: 0 <= j < |users| && users[j].username != username ==> r[j] == users[j]
  {
    match FirstIndex(users, (u: User) => u.username == username)
    case None => users
    case Some(i) => users[i := users[i].(isOnline := true, socketId := Some(sid))]
  }

  /** `disconnect`: `updateOne({ socketId }, { isOnline: false })` sets the
      first user in natural order recorded with this socket offline; it does
      not clear the recorded socket. */
  function DisconnectUsers(users: seq<User>, sid: SocketId): (r: seq<User>)
    ensures |r| == |users|
    ensures forall j :: 0 <= j < |r| ==> r[j].username == users[j].username
    ensures forall i :: 0 <= i < |users| && users[i].socketId == Some(sid) &&
                        (forall j :: 0 <= j < i ==> users[j].socketId != Some(sid)) ==>
              r[i] == users[i].(isOnline := false)
    ensures forall i, j :: 0 <= i < j < |users| && users[i].socketId == Some(sid) ==> r[j] == users[j]
    ensures forall j :: 0 <= j < |users| && users[j].socketId != Some(sid) ==> r[j] == users[j]
  {
    match FirstIndex(users, (u: User) => u.socketId == Some(sid))
    case None => users
    case Some(i) => users[i := users[i].(isOnline := false)]
  }

  /** An existing username becomes online on this socket; nobody else changes. */
  lemma JoinNetworkMarksUser(users: seq<User>, username: string, sid: SocketId, i: nat)
    requires UniqueUsernames(users)
    requires i < |users| && users[i].username == username
    ensures JoinNetworkUsers(users, username, sid)[i] == users[i].(isOnline := true, socketId := Some(sid))
    ensures forall j :: 0 <= j < |users| && j != i ==> JoinNetworkUsers(users, username, sid)[j] == users[j]
  {
    var f := FirstIndex(users, (u: User) => u.username == username);
    assert f.Some? && f.value == i;
  }

  /** An unknown username changes no user. */
  lemma JoinNetworkUnknownUser(users: seq<User>, username: string, sid: SocketId)
    requires forall j :: 0 <= j < |users| ==> users[j].username != username
    ensures JoinNetworkUsers(users, username, sid) == users
  {
    var f := FirstIndex(users, (u: User) => u.username == username);
    assert f.None?;
  }

  /** Disconnect touches only `isOnline`, and only of a user bound to the socket. */
  lemma DisconnectOnlyClearsOnline(users: seq<User>, sid: SocketId)
    ensures forall j :: 0 <= j < |users| ==>
      var r := DisconnectUsers(users, sid);
      r[j] == users[j] || (users[j].socketId == Some(sid) && r[j] == users[j].(isOnline := false))
  {
  }

  /** A superseded socket's disconnect leaves a user bound to another socket as it was. */
  lemma StaleDisconnectIsNoOp(users: seq<User>, sid: SocketId, j: nat)
    requires j < |users| && users[j].socketId != Some(sid)
    ensures DisconnectUsers(users, sid)[j] == users[j]
  {
  }

  /** Last handshake wins: join on c1, rejoin on c2, then c1 disconnects;
      the user stays online on c2. */
  lemma {:induction false} RejoinSurvivesStaleDisconnect(users: seq<User>, username: string,
                                                        c1: SocketId, c2: SocketId, i: nat)
    requires UniqueUsernames(users)
    requires i < |users| && users[i].username == username
    requires c1 != c2
    ensures var after := DisconnectUsers(JoinNetworkUsers(JoinNetworkUsers(users, username, c1), username, c2), c1);
            after[i].isOnline && after[i].socketId == Some(c2)
  {
    JoinNetworkMarksUser(users, username, c1, i);
    var once := JoinNetworkUsers(users, username, c1);
    assert UniqueUsernames(once) by {
      forall a, b | 0 <= a < b < |once| ensures once[a].username != once[b].username {
        assert once[a].username == users[a].username && once[b].username == users[b].username;
      }
    }
    JoinNetworkMarksUser(once, username, c2, i);
    var twice := JoinNetworkUsers(once, username, c2);
    StaleDisconnectIsNoOp(twice, c1, i);
  }

  /** Join then the matching disconnect: the user is offline again, provided
      no user was recorded with that socket before the join. */
  lemma {:induction false} JoinThenDisconnectGoesOffline(users: seq<User>, username: string,
                                                        sid: SocketId, i: nat)
    requires UniqueUsernames(users)
    requires i < |users| && users[i].username == username
    requires forall j :: 0 <= j < |users| ==> users[j].socketId != Some(sid)
    ensures var after := DisconnectUsers(JoinNetworkUsers(users, username, sid), sid);
            !after[i].isOnline && after[i].socketId == Some(sid)
  {
    JoinNetworkMarksUser(users, username, sid, i);
    var joined := JoinNetworkUsers(users, username, sid);
    var f := FirstIndex(joined, (u: User) => u.socketId == Some(sid));
    assert joined[i].socketId == Some(sid);
    assert f.Some? && f.value == i by {
      forall j | 0 <= j < |joined| && j != i ensures joined[j].socketId != Some(sid) {
        assert joined[j] == users[j];
      }
    }
  }

  // ---------------------------------------------------------------------
  // The server state and its handlers
  // ---------------------------------------------------------------------

  class ChatServer {
    var users: seq<User>
    var connected: set<SocketId>
    var socketUser: map<SocketId, Claims>
    var rooms: map<string, set<SocketId>>
    var log: seq<Message>
    var sent: seq<Delivery>

    /** Usernames are unique; every admitted socket carries its decoded
        token; rooms hold only connected sockets. */
    ghost predicate Valid()
      reads this
    {
      && UniqueUsernames(users)
      && socketUser.Keys == connected
      && (forall r :: r in rooms ==> rooms[r] <= connected)
    }

    /** A freshly started process: the persisted collections, no sockets. */
    constructor (users: seq<User>, log: seq<Message>)
      requires UniqueUsernames(users)
      ensures Valid()
      ensures this.users == users && this.log == log
      ensures connected == {} && socketUser == map[] && rooms == map[] && sent == []
    {
      this.users := users;
      this.log := log;
      connected := {};
      socketUser := map[];
      rooms := map[];
      sent := [];
    }

    /** The handshake gate: only an admitted socket becomes connected, so
        only it can ever reach the handlers below. socket.io puts every
        connected socket into a room named after its own id. */
    method Connect(sid: SocketId, token: Field, verify: Verifier) returns (o: GateOutcome)
      requires Valid() && sid !in connected
      modifies this
      ensures Valid()
      ensures o == HandshakeGate(token, verify)
      ensures o.Admit? ==> connected == old(connected) + {sid} && socketUser == old(socketUser)[sid := o.user]
      ensures o.Admit? ==> rooms == old(rooms)[sid := Members(old(rooms), sid) + {sid}]
      ensures o.Refuse? ==> connected == old(connected) && socketUser == old(socketUser) && rooms == old(rooms)
      ensures users == old(users) && log == old(log) && sent == old(sent)
    {
      o := HandshakeGate(token, verify);
      if o.Admit? {
        connected := connected + {sid};
        socketUser := socketUser[sid := o.user];
        rooms := rooms[sid := Members(rooms, sid) + {sid}];
      }
    }

    /** `join-network`: record presence, then send the whole roster to every socket. */
    method JoinNetwork(sid: SocketId, username: string)
      requires Valid() && sid in connected
      modifies this
      ensures Valid()
      ensures users == JoinNetworkUsers(old(users), username, sid)
      ensures sent == old(sent) + [Delivery(connected, UpdateUsers(users))]
      ensures connected == old(connected) && socketUser == old(socketUser)
      ensures rooms == old(rooms) && log == old(log)
    {
      var r := JoinNetworkUsers(users, username, sid);
      assert forall j :: 0 <= j < |r| ==> r[j].username == users[j].username;
      users := r;
      sent := sent + [Delivery(connected, UpdateUsers(users))];
    }

    /** `join-room`: `socket.join(room)`; nothing is emitted. */
    method JoinRoom(sid: SocketId, room: string)
      requires Valid() && sid in connected
      modifies this
      ensures Valid()
      ensures rooms == old(rooms)[room := Members(old(rooms), room) + {sid}]
      ensures users == old(users) && connected == old(connected) && socketUser == old(socketUser)
      ensures log == old(log) && sent == old(sent)
    {
      rooms := rooms[room := Members(rooms, room) + {sid}];
    }

    /** `global-message`: persist first, then emit to every member of the room.
        The write fails when the payload has no `senderId` (a required field)
        or when the database refuses it (`storeUp` false); then nothing is sent. */
    method SendGlobal(sid: SocketId, senderId: Option<string>, content: Field, room: Field,
                      now: int, storeUp: bool) returns (stored: bool)
      requires Valid() && sid in connected
      modifies this
      ensures Valid()
      ensures stored <==> senderId.Some? && storeUp
      ensures stored ==>
        var msg := Message(senderId.value, None, GlobalRoom(room), content, now);
        && log == old(log) + [msg]
        && sent == old(sent) + [Delivery(Members(rooms, GlobalRoom(room)), GlobalMessage(log[|log| - 1]))]
      ensures stored ==> (sid in sent[|sent| - 1].to <==> sid in Members(rooms, GlobalRoom(room)))
      ensures stored && !Truthy(room) ==> sent[|sent| - 1].to == Members(rooms, Lounge)
      ensures !stored ==> log == old(log) && sent == old(sent)
      ensures users == old(users) && rooms == old(rooms)
      ensures connected == old(connected) && socketUser == old(socketUser)
    {
      var target := GlobalRoom(room);
      stored := senderId.Some? && storeUp;
      if stored {
        var msg := Message(senderId.value, None, target, content, now);
        log := log + [msg];
        sent := sent + [Delivery(Members(rooms, target), GlobalMessage(msg))];
      }
    }

    /** `private-message`: derive the pair's room, persist, emit to that room's
        members. Nobody is joined to the room by this handler. */
    method SendPrivate(sid: SocketId, senderId: Option<string>, receiverId: Option<string>,
                       content: Field, now: int, storeUp: bool) returns (stored: bool)
      requires Valid() && sid in connected
      modifies this
      ensures Valid()
      ensures stored <==> senderId.Some? && storeUp
      ensures stored ==>
        var key := RoomKey.PrivateRoomKey(senderId, receiverId);
        && log == old(log) + [Message(senderId.value, receiverId, key, content, now)]
        && sent == old(sent) + [Delivery(Members(rooms, key), PrivateMessage(log[|log| - 1]))]
      ensures stored ==> (sid in sent[|sent| - 1].to <==> sid in Members(rooms, RoomKey.PrivateRoomKey(senderId, receiverId)))
      ensures !stored ==> log == old(log) && sent == old(sent)
      ensures users == old(users) && rooms == old(rooms)
      ensures connected == old(connected) && socketUser == old(socketUser)
    {
      var key := RoomKey.PrivateRoomKey(senderId, receiverId);
      stored := senderId.Some? && storeUp;
      if stored {
        var msg := Message(senderId.value, receiverId, key, content, now);
        log := log + [msg];
        sent := sent + [Delivery(Members(rooms, key), PrivateMessage(msg))];
      }
    }

    /** `disconnect`: socket.io drops the socket from every room; the first user
        recorded with this socket goes offline; the roster goes to every
        remaining socket. */
    method Disconnect(sid: SocketId)
      requires Valid() && sid in connected
      modifies this
      ensures Valid()
      ensures connected == old(connected) - {sid}
      ensures socketUser == old(socketUser) - {sid}
      ensures forall r :: r in rooms ==> r in old(rooms) && rooms[r] == old(rooms)[r] - {sid} && rooms[r] != {}
      ensures forall r :: r in old(rooms) && old(rooms)[r] - {sid} != {} ==> r in rooms
      ensures users == DisconnectUsers(old(users), sid)
      ensures sent == old(sent) + [Delivery(connected, UpdateUsers(users))]
      ensures log == old(log)
    {
      connected := connected - {sid};
      socketUser := socketUser - {sid};
      rooms := LeaveAllRooms(rooms, sid);
      users := DisconnectUsers(users, sid);
      sent := sent + [Delivery(connected, UpdateUsers(users))];
    }
  }

  /** socket.io on disconnect: the socket leaves every room, and a room left
      empty no longer exists. */
  function LeaveAllRooms(rooms: map<string, set<SocketId>>, sid: SocketId): (r: map<string, set<SocketId>>)
    ensures forall room :: room in r ==> room in rooms && r[room] == rooms[room] - {sid} && r[room] != {}
    ensures forall room :: room in rooms && rooms[room] - {sid} != {} ==> room in r
  {
    map room | room in rooms && rooms[room] - {sid} != {} :: rooms[room] - {sid}
  }
}

=== FILE: common.dfy ===
/**
 * Small shared vocabulary: optional values (JavaScript's `undefined`),
 * JavaScript truthiness of request fields, and filtering of sequences.
 */
module Common {

  datatype Option<+T> = None | Some(value: T)

  /** A request field as Express hands it over: absent (`undefined`) or a string. */
  type Field = Option<string>

  /** `!!field` in JavaScript: present and not the empty string. */
  predicate Truthy(f: Field) {
    f.Some? && f.value != ""
  }

  /** The elements of `xs` that satisfy `p`, in their original order. */
  function Filter<T(!new)>(xs: seq<T>, p: T -> bool): (r: seq<T>)
    ensures |r| <= |xs|
    ensures forall x :: x in r <==> x in xs && p(x)
  {
    if xs == [] then []
    else if p(xs[0]) then [xs[0]] + Filter(xs[1..], p)
    else Filter(xs[1..], p)
  }

  /** Two predicates that agree on every element of `xs` select the same subsequence. */
  lemma {:induction false} FilterCongruent<T(!new)>(xs: seq<T>, p: T -> bool, q: T -> bool)
    requires forall x :: x in xs ==> p(x) == q(x)
    ensures Filter(xs, p) == Filter(xs, q)
  {
    if xs != [] {
      FilterCongruent(xs[1..], p, q);
    }
  }

  /** Filtering distributes over concatenation (used for append-only logs). */
  lemma {:induction false} FilterAppend<T(!new)>(xs: seq<T>, ys: seq<T>, p: T -> bool)
    ensures Filter(xs + ys, p) == Filter(xs, p) + Filter(ys, p)
  {
    if xs == [] {
      assert xs + ys == ys;
    } else {
      assert (xs + ys)[1..] == xs[1..] + ys;
      FilterAppend(xs[1..], ys, p);
    }
  }

  /** Number of elements of `xs` satisfying `p`. */
  function CountWhere<T(!new)>(xs: seq<T>, p: T -> bool): (n: nat)
    ensures n <= |xs|
    ensures n == 0 <==> forall x :: x in xs ==> !p(x)
  {
    if xs == [] then 0
    else (if p(xs[0]) then 1 else 0) + CountWhere(xs[1..], p)
  }

  /** A weaker predicate counts at least as many elements. */
  lemma {:induction false} CountWhereMono<T(!new)>(xs: seq<T>, p: T -> bool, q: T -> bool)
    requires forall x :: x in xs && p(x) ==> q(x)
    ensures CountWhere(xs, p) <= CountWhere(xs, q)
  {
    if xs != [] {
      assert forall x :: x in xs[1..] ==> x in xs;
      CountWhereMono(xs[1..], p, q);
    }
  }

  /** Appending one element adds one to the count exactly when it satisfies `p`. */
  lemma {:induction false} CountWhereAppend<T(!new)>(xs: seq<T>, x: T, p: T -> bool)
    ensures CountWhere(xs + [x], p) == CountWhere(xs, p) + (if p(x) then 1 else 0)
  {
    if xs == [] {
      assert xs + [x] == [x];
    } else {
      assert (xs + [x])[1..] == xs[1..] + [x];
      CountWhereAppend(xs[1..], x, p);
    }
  }

  lemma {:induction false} CountIsFilterLength<T(!new)>(xs: seq<T>, p: T -> bool)
    ensures CountWhere(xs, p) == |Filter(xs, p)|
  {
    if xs != [] {
      CountIsFilterLength(xs[1..], p);
    }
  }

  /** The first position whose element satisfies `p` (a `findOne` in natural order). */
  function FirstIndex<T>(xs: seq<T>, p: T -> bool): (r: Option<nat>)
    ensures r.Some? ==> r.value < |xs| && p(xs[r.value])
    ensures r.Some? ==> forall j :: 0 <= j < r.value ==> !p(xs[j])
    ensures r.None? ==> forall j :: 0 <= j < |xs| ==> !p(xs[j])
  {
    if xs == [] then None
    else if p(xs[0]) then Some(0)
    else match FirstIndex(xs[1..], p)
      case None => None
      case Some(k) => Some(k + 1)
  }
}

=== FILE: holiday_controller.dfy ===
/**
 * The holiday controller (basicCode/03/backend/controllers/holidayController.js):
 * create and list. The holiday date is unique (03/backend/models/Holiday.js),
 * kept as the store invariant `UniqueHolidayDates`.
 */
module HolidayController {
  import opened Common
  import opened AttendanceModel
  import opened AttendanceController

  datatype HolidayReply =
    | HolidayCreated(holiday: Holiday)
    | HolidayRefused(status: int, error: string)

  const DateRequired := "Date is required."
  /** Stands for the text of the duplicate-key error of the unique date index. */
  const DuplicateDate := "E11000 duplicate key error"

  /** `date` is None when the body has no date. */
  function CreateHolidayOutcome(holidays: seq<Holiday>, date: Option<int>, description: Field): (r: HolidayReply)
    ensures date.None? <==> r == HolidayRefused(400, DateRequired)
    ensures r.HolidayCreated? <==> date.Some? && !IsHoliday(holidays, date.value)
    ensures r.HolidayCreated? ==> r.holiday == Holiday(date.value, description)
    ensures r.HolidayRefused? ==> r.status == 400
  {
    match date
    case None => HolidayRefused(400, DateRequired)
    case Some(d) =>
      if IsHoliday(holidays, d) then HolidayRefused(400, DuplicateDate)
      else HolidayCreated(Holiday(d, description))
  }

  /** POST /holidays on the store. */
  method CreateHoliday(store: Store, date: Option<int>, description: Field) returns (reply: HolidayReply)
    requires store.Valid()
    modifies store
    ensures store.Valid()
    ensures reply == CreateHolidayOutcome(old(store.holidays), date, description)
    ensures reply.HolidayCreated? ==> store.holidays == old(store.holidays) + [reply.holiday]
    ensures reply.HolidayRefused? ==> store.holidays == old(store.holidays)
    ensures store.students == old(store.students) && store.teachers == old(store.teachers)
    ensures store.records == old(store.records)
  {
    reply := CreateHolidayOutcome(store.holidays, date, description);
    if reply.HolidayCreated? {
      var d := date.value;
      assert forall k :: 0 <= k < |store.holidays| ==> store.holidays[k].date != d;
      store.holidays := store.holidays + [reply.holiday];
    }
  }

  /** GET /holidays: every stored holiday, in collection order. */
  method GetHolidays(store: Store) returns (holidays: seq<Holiday>)
    ensures holidays == store.holidays
  {
    holidays := store.holidays;
  }

  /** Once a date is a holiday, no attendance can be marked on it, and a
      second holiday on it is refused. */
  lemma HolidayBlocksMarking(holidays: seq<Holiday>, date: int, description: Field,
                             teachers: seq<Teacher>, records: seq<Record>, req: MarkRequest, now: int)
    requires CreateHolidayOutcome(holidays, Some(date), description).HolidayCreated?
    requires req.date == date
    ensures var stored := holidays + [Holiday(date, description)];
            && MarkOutcome(stored, teachers, records, req, now) == MarkRefused(400, HolidayError)
            && CreateHolidayOutcome(stored, Some(date), description) == HolidayRefused(400, DuplicateDate)
  {
    var stored := holidays + [Holiday(date, description)];
    var p := (h: Holiday) => h.date == date;
    assert p(stored[|holidays|]);
    assert FirstIndex(stored, p).Some?;
  }
}

=== FILE: message_history.dfy ===
/**
 * `GET /messages/:id` (routes/message.js): the shared room's history, or the
 * two-party history between the authenticated user and `id`, ordered by
 * timestamp. The database leaves the order of equal timestamps open; here
 * they come out in reverse log order (`Sorting.TiesReversed`).
 */
module MessageHistory {
  import opened Common
  import opened Sorting
  import opened TokenAuth
  import opened ChatStore
  import RoomKey

  function Timestamp(m: Message): int { m.timestamp }

  /** The private-query filter: from `u` to `v` or from `v` to `u`. */
  predicate Between(m: Message, u: string, v: string) {
    (m.senderId == u && m.receiverId == Some(v)) || (m.senderId == v && m.receiverId == Some(u))
  }

  /** The messages a query selects, before ordering. */
  function Selected(log: seq<Message>, requester: string, id: string): (r: seq<Message>)
    ensures |r| <= |log|
    ensures forall m :: m in r <==>
              m in log && (if id == Lounge then m.room == Lounge else Between(m, requester, id))
  {
    if id == Lounge then Filter(log, (m: Message) => m.room == Lounge)
    else Filter(log, (m: Message) => Between(m, requester, id))
  }

  /** The history answered to `requester` (the id in the token) for `id`. */
  function History(log: seq<Message>, requester: string, id: string): (r: seq<Message>)
    ensures SortedBy(r, Timestamp)
    ensures multiset(r) == multiset(Selected(log, requester, id))
  {
    SortBy(Selected(log, requester, id), Timestamp)
  }

  /** "Lounge" returns exactly the logged messages whose room is "Lounge". */
  lemma LoungeHistoryExact(log: seq<Message>, requester: string, m: Message)
    ensures m in History(log, requester, Lounge) <==> m in log && m.room == Lounge
  {
    SortKeepsMembers(Selected(log, requester, Lounge), Timestamp, m);
  }

  /** Any other id returns exactly the messages between requester and id. */
  lemma PrivateHistoryExact(log: seq<Message>, requester: string, id: string, m: Message)
    requires id != Lounge
    ensures m in History(log, requester, id) <==> m in log && Between(m, requester, id)
  {
    SortKeepsMembers(Selected(log, requester, id), Timestamp, m);
  }

  /** Every private result has the requester at one end and a receiver. */
  lemma PrivateHistoryInvolvesRequester(log: seq<Message>, requester: string, id: string, m: Message)
    requires id != Lounge && m in History(log, requester, id)
    ensures m.receiverId.Some?
    ensures m.senderId == requester || m.receiverId == Some(requester)
  {
    PrivateHistoryExact(log, requester, id, m);
  }

  /** The two participants see the same private history, in the same order. */
  lemma PrivateHistorySymmetric(log: seq<Message>, u: string, v: string)
    requires u != Lounge && v != Lounge
    ensures History(log, u, v) == History(log, v, u)
  {
    FilterCongruent(log, (m: Message) => Between(m, u, v), (m: Message) => Between(m, v, u));
  }

  /** No match is an empty list, not an error (for ids that pass the
      ObjectId cast; see `MessagesRoute`). */
  lemma NoMatchIsEmpty(log: seq<Message>, requester: string, id: string)
    requires id != Lounge
    requires forall m :: m in log ==> !Between(m, requester, id)
    ensures History(log, requester, id) == []
  {
    var r := History(log, requester, id);
    if r != [] {
      PrivateHistoryExact(log, requester, id, r[0]);
    }
  }

  /** A private message from a to b is in the later history of both. */
  lemma PrivateMessageVisibleToBoth(log: seq<Message>, a: string, b: string, content: Field, now: int)
    requires a != Lounge && b != Lounge
    ensures var m := Message(a, Some(b), RoomKey.PrivateRoomKey(Some(a), Some(b)), content, now);
            m in History(log + [m], a, b) && m in History(log + [m], b, a)
  {
    var m := Message(a, Some(b), RoomKey.PrivateRoomKey(Some(a), Some(b)), content, now);
    PrivateHistoryExact(log + [m], a, b, m);
    PrivateHistoryExact(log + [m], b, a, m);
  }

  /** The route's answer. */
  datatype Response =
    | Messages(status: int, body: seq<Message>)
    | Failed(status: int, error: string)
    /** The private query's promise rejects (a CastError) and the handler
        has no `catch`: no response is ever sent. */
    | NoAnswer

  /** The private query casts both ids against the ObjectId paths `senderId`
      and `receiverId`; the Lounge query compares the string `room` and casts
      nothing. `isObjectId` is mongoose's ObjectId cast test. */
  predicate CastFails(requester: string, id: string, isObjectId: string -> bool) {
    id != Lounge && !(isObjectId(requester) && isObjectId(id))
  }

  /** The route behind `auth`: the query runs only for an authenticated
      request, and answers only when its ids cast. */
  function MessagesRoute(log: seq<Message>, header: Field, verify: Verifier, id: string,
                         isObjectId: string -> bool): (r: Response)
    ensures r.Failed? <==> AuthMiddleware(header, verify).Rejected?
    ensures r.Failed? ==> r.status == 401
    ensures r.Messages? <==>
              AuthMiddleware(header, verify).NextCalled? &&
              !CastFails(AuthMiddleware(header, verify).user.id, id, isObjectId)
    ensures r.Messages? ==>
              r.status == 200 && r.body == History(log, AuthMiddleware(header, verify).user.id, id)
    ensures r == NoAnswer <==>
              AuthMiddleware(header, verify).NextCalled? &&
              CastFails(AuthMiddleware(header, verify).user.id, id, isObjectId)
  {
    match AuthMiddleware(header, verify)
    case Rejected(status, error) => Failed(status, error)
    case NextCalled(user) =>
      if CastFails(user.id, id, isObjectId) then NoAnswer
      else Messages(200, History(log, user.id, id))
  }

  /** "Lounge" is always answered once the request is authenticated, whatever
      the cast would say. */
  lemma LoungeAlwaysAnswered(log: seq<Message>, header: Field, verify: Verifier,
                             isObjectId: string -> bool)
    requires AuthMiddleware(header, verify).NextCalled?
    ensures MessagesRoute(log, header, verify, Lounge, isObjectId) ==
              Messages(200, History(log, AuthMiddleware(header, verify).user.id, Lounge))
  {
  }
}

=== FILE: minimal_attendance.dfy ===
/**
 * The small attendance controller of the second back end
 * (03/backend/controllers/attendaceController.js) over its own record
 * schema (03/backend/models/Attendance.js): student, teacher, date and
 * status. The date's default, `Date.now()`, is evaluated once when the
 * schema module loads, so every record gets that same instant; the ledger
 * keeps it as the constant `loadedAt`.
 */
module MinimalAttendance {
  import opened Common
  import opened AttendanceModel

  datatype Entry = Entry(student: StudentId, teacher: TeacherId, date: int, status: Status)

  datatype MarkReply =
    | Saved(entry: Entry)
    | SaveFailed(status: int, error: string)

  /** Stands for the text of the schema validator's error. */
  const EntryValidationError := "Attendance validation failed"
  const NoRecords := "No attendance records found"

  /** The required student and teacher must be given and the status must be an enum value. */
  function MarkEntry(student: Option<StudentId>, teacher: Option<TeacherId>, status: Field, loadedAt: int): (r: MarkReply)
    ensures r.Saved? <==> student.Some? && teacher.Some? && status.Some? && ParseStatus(status.value).Some?
    ensures r.Saved? ==>
              r.entry == Entry(student.value, teacher.value, loadedAt, ParseStatus(status.value).value)
    ensures r.SaveFailed? ==> r == SaveFailed(400, EntryValidationError)
  {
    if student.None? || teacher.None? || status.None? || ParseStatus(status.value).None? then
      SaveFailed(400, EntryValidationError)
    else Saved(Entry(student.value, teacher.value, loadedAt, ParseStatus(status.value).value))
  }

  datatype ListReply =
    | Listed(status: int, entries: seq<Entry>)
    | NothingFound(status: int, message: string)

  /** GET /attendance: 404 on an empty collection, otherwise every entry. */
  function ListEntries(entries: seq<Entry>): (r: ListReply)
    ensures r.NothingFound? <==> entries == []
    ensures r.NothingFound? ==> r == NothingFound(404, NoRecords)
    ensures r.Listed? ==> r.status == 200 && r.entries == entries
  {
    if entries == [] then NothingFound(404, NoRecords) else Listed(200, entries)
  }

  class Ledger {
    var entries: seq<Entry>
    /** The instant the schema module was loaded. */
    const loadedAt: int

    /** Every entry carries the load-time date. */
    ghost predicate Valid()
      reads this
    {
      forall k :: 0 <= k < |entries| ==> entries[k].date == loadedAt
    }

    constructor (loadedAt: int)
      ensures Valid() && entries == [] && this.loadedAt == loadedAt
    {
      entries := [];
      this.loadedAt := loadedAt;
    }

    /** POST /attendance. */
    method Mark(student: Option<StudentId>, teacher: Option<TeacherId>, status: Field) returns (reply: MarkReply)
      requires Valid()
      modifies this
      ensures Valid()
      ensures reply == MarkEntry(student, teacher, status, loadedAt)
      ensures reply.Saved? ==> entries == old(entries) + [reply.entry]
      ensures reply.SaveFailed? ==> entries == old(entries)
    {
      reply := MarkEntry(student, teacher, status, loadedAt);
      if reply.Saved? {
        entries := entries + [reply.entry];
      }
    }

    /** GET /attendance. */
    method List() returns (reply: ListReply)
      ensures reply == ListEntries(entries)
    {
      reply := ListEntries(entries);
    }
  }

  /** After any successful mark the listing answers 200 and ends with that entry. */
  lemma MarkThenListed(entries: seq<Entry>, student: Option<StudentId>, teacher: Option<TeacherId>,
                       status: Field, loadedAt: int)
    requires MarkEntry(student, teacher, status, loadedAt).Saved?
    ensures var e := MarkEntry(student, teacher, status, loadedAt).entry;
            var r := ListEntries(entries + [e]);
            r.Listed? && r.status == 200 && r.entries[|r.entries| - 1] == e
  {
  }

  /** Two marks of the same student, whenever they happen, carry the same date. */
  lemma MarksShareTheLoadDate(s1: Option<StudentId>, t1: Option<TeacherId>, st1: Field,
                              s2: Option<StudentId>, t2: Option<TeacherId>, st2: Field, loadedAt: int)
    requires MarkEntry(s1, t1, st1, loadedAt).Saved? && MarkEntry(s2, t2, st2, loadedAt).Saved?
    ensures MarkEntry(s1, t1, st1, loadedAt).entry.date == MarkEntry(s2, t2, st2, loadedAt).entry.date == loadedAt
  {
  }
}

=== FILE: room_key.dfy ===
/**
 * The private room key of the chat: `[senderId, receiverId].sort().join('_')`
 * (socket/socketHandler.js). JavaScript's default sort compares the string
 * forms of its elements code unit by code unit, moves `undefined` to the
 * end without comparing it, and `join` renders `undefined` as "".
 */
module RoomKey {
  import opened Common

  /** Strict lexicographic order on strings (JavaScript's `<` on strings). */
  predicate LexLess(a: string, b: string) {
    if a == [] then b != []
    else if b == [] then false
    else if a[0] != b[0] then a[0] < b[0]
    else LexLess(a[1..], b[1..])
  }

  lemma {:induction false} LexLessIrreflexive(a: string)
    ensures !LexLess(a, a)
  {
    if a != [] {
      LexLessIrreflexive(a[1..]);
    }
  }

  /** Any two distinct strings are ordered one way and not the other. */
  lemma {:induction false} LexLessTrichotomy(a: string, b: string)
    ensures a == b || LexLess(a, b) || LexLess(b, a)
    ensures !(LexLess(a, b) && LexLess(b, a))
  {
    if a != [] && b != [] && a[0] == b[0] {
      LexLessTrichotomy(a[1..], b[1..]);
      if a[1..] == b[1..] {
        assert a == [a[0]] + a[1..] && b == [b[0]] + b[1..];
      }
    }
  }

  /** `[a, b].sort()` for two present ids. */
  function SortPair(a: string, b: string): (r: (string, string))
    ensures r == (a, b) || r == (b, a)
    ensures !LexLess(r.1, r.0)
  {
    LexLessTrichotomy(a, b);
    if LexLess(b, a) then (b, a) else (a, b)
  }

  /** The room name two ids land in. */
  function PrivateRoomKey(senderId: Option<string>, receiverId: Option<string>): (key: string)
    ensures senderId.Some? && receiverId.Some? ==>
              key == senderId.value + "_" + receiverId.value || key == receiverId.value + "_" + senderId.value
    ensures senderId.Some? && receiverId.Some? ==> |key| == |senderId.value| + |receiverId.value| + 1
    ensures senderId.None? && receiverId.None? ==> key == "_"
    ensures senderId.Some? != receiverId.Some? ==>
              key == (if senderId.Some? then senderId.value else receiverId.value) + "_"
  {
    match (senderId, receiverId)
    case (Some(a), Some(b)) => var p := SortPair(a, b); p.0 + "_" + p.1
    case (Some(a), None) => a + "_"
    case (None, Some(b)) => b + "_"
    case (None, None) => "_"
  }

  /** The key does not depend on who sends: both participants share the room. */
  lemma PrivateRoomKeySymmetric(a: Option<string>, b: Option<string>)
    ensures PrivateRoomKey(a, b) == PrivateRoomKey(b, a)
  {
    if a.Some? && b.Some? {
      LexLessTrichotomy(a.value, b.value);
    }
  }

  /** For two present ids the key is the smaller id, "_", then the larger one. */
  lemma PrivateRoomKeyAscending(a: string, b: string)
    ensures LexLess(a, b) ==> PrivateRoomKey(Some(a), Some(b)) == a + "_" + b
    ensures LexLess(b, a) ==> PrivateRoomKey(Some(a), Some(b)) == b + "_" + a
    ensures a == b ==> PrivateRoomKey(Some(a), Some(b)) == a + "_" + a
  {
    LexLessTrichotomy(a, b);
  }

  /** Distinct unordered pairs of underscore-free ids get distinct rooms. */
  lemma {:induction false} PrivateRoomKeyInjective(a: string, b: string, c: string, d: string)
    requires '_' !in a && '_' !in b && '_' !in c && '_' !in d
    requires PrivateRoomKey(Some(a), Some(b)) == PrivateRoomKey(Some(c), Some(d))
    ensures (a == c && b == d) || (a == d && b == c)
  {
    var p := SortPair(a, b);
    var q := SortPair(c, d);
    assert p.0 + "_" + p.1 == q.0 + "_" + q.1;
    UnderscoreSplitUnique(p.0, p.1, q.0, q.1);
  }

  /** Helper: `x + "_" + y` determines x and y when x has no underscore. */
  lemma UnderscoreSplitUnique(x: string, y: string, u: string, v: string)
    requires '_' !in x && '_' !in u
    requires x + "_" + y == u + "_" + v
    ensures x == u && y == v
  {
    var w := x + "_" + y;
    assert w[|x|] == '_' && w[|u|] == '_';
    UnderscoreFreePrefix(x, y, |u|);
    UnderscoreFreePrefix(u, v, |x|);
    assert |x| == |u|;
    assert x == w[..|x|] && u == (u + "_" + v)[..|u|];
    assert y == w[|x| + 1..] && v == (u + "_" + v)[|u| + 1..];
  }

  /** Helper: no underscore occurs in `x + "_" + y` before position |x|. */
  lemma UnderscoreFreePrefix(x: string, y: string, k: nat)
    requires '_' !in x
    ensures k < |x| ==> (x + "_" + y)[k] != '_'
  {
    if k < |x| {
      assert (x + "_" + y)[k] == x[k];
    }
  }
}

=== FILE: sorting.dfy ===
/**
 * An insertion sort by an integer key, standing for the database's `.sort(...)`
 * and `$sort` stages. Elements with equal keys come out in reverse input
 * order, one of the orders the database leaves open. Both orders used by the services are expressed with
 * it: ascending timestamp, and descending count (key = -count).
 */
module Sorting {

  /** Every earlier element has a key no larger than every later one. */
  ghost predicate SortedBy<T>(xs: seq<T>, key: T -> int) {
    forall i, j :: 0 <= i < j < |xs| ==> key(xs[i]) <= key(xs[j])
  }

  /** Insert `x` before the first element whose key is larger. */
  function Insert<T>(x: T, xs: seq<T>, key: T -> int): (r: seq<T>)
    ensures multiset(r) == multiset(xs) + multiset{x}
    ensures forall k :: 0 <= k < |r| ==> r[k] == x || r[k] in xs
  {
    if xs == [] then [x]
    else if key(x) < key(xs[0]) then [x] + xs
    else
      assert xs == [xs[0]] + xs[1..];
      [xs[0]] + Insert(x, xs[1..], key)
  }

  /** An element no larger than every element of a sorted sequence may go in front. */
  lemma SortedCons<T>(a: T, ys: seq<T>, key: T -> int)
    requires SortedBy(ys, key)
    requires forall k :: 0 <= k < |ys| ==> key(a) <= key(ys[k])
    ensures SortedBy([a] + ys, key)
  {
    var r := [a] + ys;
    forall i, j | 0 <= i < j < |r| ensures key(r[i]) <= key(r[j]) {
      assert r[j] == ys[j - 1];
      if i > 0 {
        assert r[i] == ys[i - 1];
      }
    }
  }

  /** Inserting into a sorted sequence keeps it sorted. */
  lemma {:induction false} InsertSorted<T>(x: T, xs: seq<T>, key: T -> int)
    requires SortedBy(xs, key)
    ensures SortedBy(Insert(x, xs, key), key)
  {
    if xs == [] {
    } else if key(x) < key(xs[0]) {
      SortedCons(x, xs, key);
    } else {
      var tail := xs[1..];
      assert SortedBy(tail, key) by {
        forall i, j | 0 <= i < j < |tail| ensures key(tail[i]) <= key(tail[j]) {
          assert tail[i] == xs[i + 1] && tail[j] == xs[j + 1];
        }
      }
      InsertSorted(x, tail, key);
      var rest := Insert(x, tail, key);
      forall k | 0 <= k < |rest| ensures key(xs[0]) <= key(rest[k]) {
        if rest[k] != x {
          var i :| 0 <= i < |tail| && tail[i] == rest[k];
          assert tail[i] == xs[i + 1];
        }
      }
      SortedCons(xs[0], rest, key);
      assert Insert(x, xs, key) == [xs[0]] + rest;
    }
  }

  /** In a sorted sequence, an element of the first `m` has a key no larger
      than any element outside them. */
  lemma PrefixDominates<T>(xs: seq<T>, key: T -> int, m: nat, inside: T, outside: T)
    requires SortedBy(xs, key) && m <= |xs|
    requires inside in xs[..m] && outside in xs && outside !in xs[..m]
    ensures key(inside) <= key(outside)
  {
    var q :| 0 <= q < m && xs[q] == inside;
    var p :| 0 <= p < |xs| && xs[p] == outside;
    EarlyIsInPrefix(xs, m, p);
  }

  lemma EarlyIsInPrefix<T>(xs: seq<T>, m: nat, p: nat)
    requires m <= |xs| && p < |xs|
    ensures p < m ==> xs[p] in xs[..m]
  {
    if p < m {
      assert xs[..m][p] == xs[p];
    }
  }

  /** Insertion sort: a sorted permutation of `xs`. */
  function SortBy<T>(xs: seq<T>, key: T -> int): (r: seq<T>)
    ensures SortedBy(r, key)
    ensures multiset(r) == multiset(xs)
  {
    if xs == [] then []
    else
      assert xs == [xs[0]] + xs[1..];
      var rest := SortBy(xs[1..], key);
      InsertSorted(xs[0], rest, key);
      Insert(xs[0], rest, key)
  }

  /** Ties are reversed: of two elements with equal keys, the later comes first. */
  lemma TiesReversed<T>(a: T, b: T, key: T -> int)
    requires key(a) == key(b)
    ensures SortBy([a, b], key) == [b, a]
  {
    assert [a, b][1..] == [b];
    assert SortBy([b], key) == Insert(b, [], key) == [b];
  }

  /** The sort neither adds nor drops elements. */
  lemma SortKeepsMembers<T>(xs: seq<T>, key: T -> int, x: T)
    ensures x in SortBy(xs, key) <==> x in xs
  {
    var r := SortBy(xs, key);
    assert x in r <==> x in multiset(r);
    assert x in xs <==> x in multiset(xs);
  }
}

=== FILE: student_controller.dfy ===
/**
 * The student controller (03/backend/controllers/studentController.js),
 * over the student document with name, class and section
 * (basicCode/03/backend/models/Student.js). The schema trims `name`, both
 * when a student is saved and when it is looked up, and (name, class) is a
 * unique index, kept as the store invariant `UniqueNameClass`.
 */
module StudentController {
  import opened Common
  import opened AttendanceModel
  import opened AttendanceQueries

  // ---------------------------------------------------------------------
  // String.prototype.trim
  // ---------------------------------------------------------------------

  /** JavaScript's white space and line terminators, which `trim` removes. */
  predicate IsJsSpace(c: char) {
    || c == '\t' || c == '\n' || c == '\U{B}' || c == '\U{C}' || c == '\r' || c == ' '
    || c == '\U{A0}' || c == '\U{1680}' || '\U{2000}' <= c <= '\U{200A}'
    || c == '\U{2028}' || c == '\U{2029}' || c == '\U{202F}' || c == '\U{205F}'
    || c == '\U{3000}' || c == '\U{FEFF}'
  }

  function TrimStart(s: string): (r: string)
    ensures |r| <= |s| && r == s[|s| - |r|..]
    ensures r == [] || !IsJsSpace(r[0])
    ensures forall k :: 0 <= k < |s| - |r| ==> IsJsSpace(s[k])
  {
    if s != [] && IsJsSpace(s[0]) then TrimStart(s[1..]) else s
  }

  function TrimEnd(s: string): (r: string)
    ensures |r| <= |s| && r == s[..|r|]
    ensures r == [] || !IsJsSpace(r[|r| - 1])
    ensures forall k :: |r| <= k < |s| ==> IsJsSpace(s[k])
  {
    if s != [] && IsJsSpace(s[|s| - 1]) then TrimEnd(s[..|s| - 1]) else s
  }

  /** How many white-space characters `trim` removes from the front. */
  function LeadingSpace(s: string): (n: nat)
    ensures n <= |s|
  {
    |s| - |TrimStart(s)|
  }

  /** `s.trim()`: the middle part of `s` that neither starts nor ends with
      white space; everything cut off on either side is white space. */
  function Trim(s: string): (r: string)
    ensures LeadingSpace(s) + |r| <= |s| && r == s[LeadingSpace(s)..LeadingSpace(s) + |r|]
    ensures r == [] || (!IsJsSpace(r[0]) && !IsJsSpace(r[|r| - 1]))
    ensures forall k :: 0 <= k < LeadingSpace(s) ==> IsJsSpace(s[k])
    ensures forall k :: LeadingSpace(s) + |r| <= k < |s| ==> IsJsSpace(s[k])
  {
    TrimEndOfSuffix(s, TrimStart(s));
    TrimEnd(TrimStart(s))
  }

  /** Trimming the end of a suffix `t` of `s` leaves a slice of `s` whose
      tail in `s` is white space. */
  lemma TrimEndOfSuffix(s: string, t: string)
    requires |t| <= |s| && t == s[|s| - |t|..]
    ensures var n, r := |s| - |t|, TrimEnd(t);
            n + |r| <= |s| && r == s[n..n + |r|] &&
            forall k :: n + |r| <= k < |s| ==> IsJsSpace(s[k])
  {
    var n, r := |s| - |t|, TrimEnd(t);
    forall k | n + |r| <= k < |s| ensures IsJsSpace(s[k]) {
      assert s[k] == t[k - n];
    }
  }

  /** Trimming twice is trimming once. */
  lemma TrimIdempotent(s: string)
    ensures Trim(Trim(s)) == Trim(s)
  {
    var r := Trim(s);
    assert TrimStart(r) == r;
    assert TrimEnd(r) == r;
  }

  /** A name made only of white space trims to the empty string. */
  lemma AllSpaceTrimsToEmpty(s: string)
    requires forall k :: 0 <= k < |s| ==> IsJsSpace(s[k])
    ensures Trim(s) == ""
  {
    var r := Trim(s);
    assert |r| > 0 ==> r[0] == s[LeadingSpace(s)];
  }

  // ---------------------------------------------------------------------
  // POST /students
  // ---------------------------------------------------------------------

  datatype StudentReply =
    | StudentCreated(student: Student)
    | StudentRefused(status: int, error: string)

  const MissingStudentFields := "Name, class, and section are required."
  const DuplicateStudent := "Student with this name already exists in this class."
  /** Stands for the text of the validator's error for a name that trims to "". */
  const StudentValidationError := "Student validation failed"

  /** `Student.findOne({ name, class })`, the name trimmed by the schema. */
  predicate NameTaken(students: seq<Student>, name: string, className: string) {
    FirstIndex(students, (s: Student) => s.name == Trim(name) && s.className == className).Some?
  }

  function CreateStudentOutcome(students: seq<Student>, name: Field, className: Field, section: Field): (r: StudentReply)
    ensures !(Truthy(name) && Truthy(className) && Truthy(section)) <==> r == StudentRefused(400, MissingStudentFields)
    ensures Truthy(name) && Truthy(className) && Truthy(section) && NameTaken(students, name.value, className.value) ==>
              r == StudentRefused(400, DuplicateStudent)
    ensures r.StudentCreated? <==>
              && Truthy(name) && Truthy(className) && Truthy(section)
              && !NameTaken(students, name.value, className.value)
              && Trim(name.value) != ""
    ensures r.StudentCreated? ==> r.student == Student(Trim(name.value), className.value, section.value)
    ensures r.StudentRefused? ==> r.status == 400
  {
    if !Truthy(name) || !Truthy(className) || !Truthy(section) then StudentRefused(400, MissingStudentFields)
    else if NameTaken(students, name.value, className.value) then StudentRefused(400, DuplicateStudent)
    else if Trim(name.value) == "" then StudentRefused(400, StudentValidationError)
    else StudentCreated(Student(Trim(name.value), className.value, section.value))
  }

  /** The duplicate check ignores the section, and it sees through surrounding
      white space: a second create of the same name in the same class is refused. */
  lemma SameNameSameClassRefused(students: seq<Student>, name: Field, className: Field, s1: Field, s2: Field, name2: Field)
    requires CreateStudentOutcome(students, name, className, s1).StudentCreated?
    requires Truthy(name2) && Trim(name2.value) == Trim(name.value) && Truthy(s2)
    ensures var stored := students + [CreateStudentOutcome(students, name, className, s1).student];
            CreateStudentOutcome(stored, name2, className, s2) == StudentRefused(400, DuplicateStudent)
  {
    var stored := students + [CreateStudentOutcome(students, name, className, s1).student];
    var p := (s: Student) => s.name == Trim(name2.value) && s.className == className.value;
    assert p(stored[|students|]);
    if FirstIndex(stored, p).None? {
      assert false;
    }
  }

  /** POST /students on the store. */
  method CreateStudent(store: Store, name: Field, className: Field, section: Field) returns (reply: StudentReply)
    requires store.Valid()
    modifies store
    ensures store.Valid()
    ensures reply == CreateStudentOutcome(old(store.students), name, className, section)
    ensures reply.StudentCreated? ==> store.students == old(store.students) + [reply.student]
    ensures reply.StudentRefused? ==> store.students == old(store.students)
    ensures store.teachers == old(store.teachers) && store.holidays == old(store.holidays)
    ensures store.records == old(store.records)
  {
    reply := CreateStudentOutcome(store.students, name, className, section);
    if reply.StudentCreated? {
      var p := (s: Student) => s.name == Trim(name.value) && s.className == className.value;
      assert forall k :: 0 <= k < |store.students| ==> !p(store.students[k]);
      AppendNewStudent(store.students, reply.student);
      store.students := store.students + [reply.student];
    }
  }

  // ---------------------------------------------------------------------
  // GET /students
  // ---------------------------------------------------------------------

  datatype StudentQuery = StudentQuery(performance: Field, above70: Field, className: Field, section: Field,
                                       month: Option<int>, year: Option<int>)

  datatype StudentsAnswer =
    | Grouped(rows: seq<Joined<Share>>)
    | Everyone(students: seq<Student>)

  /** The aggregation runs when performance or above70 is given together with
      class, section, month and year; above70 adds the 70% filter. */
  function GetStudents(records: seq<Record>, students: seq<Student>, q: StudentQuery): (a: StudentsAnswer)
    ensures a.Everyone? <==>
              !((Truthy(q.performance) || Truthy(q.above70)) &&
                Truthy(q.className) && Truthy(q.section) && q.month.Some? && q.year.Some?)
    ensures a.Everyone? ==> a.students == students
    ensures a.Grouped? && Truthy(q.above70) ==>
              a.rows == Above70(records, students, q.className.value, q.section.value, q.year.value, q.month.value)
    ensures a.Grouped? && !Truthy(q.above70) ==>
              a.rows == Performance(records, students, q.className.value, q.section.value, q.year.value, q.month.value)
  {
    if (Truthy(q.performance) || Truthy(q.above70)) &&
       Truthy(q.className) && Truthy(q.section) && q.month.Some? && q.year.Some? then
      var cls, sec, y, m := q.className.value, q.section.value, q.year.value, q.month.value;
      if Truthy(q.above70) then Grouped(Above70(records, students, cls, sec, y, m))
      else Grouped(Performance(records, students, cls, sec, y, m))
    else Everyone(students)
  }

  /** The above70 rows are exactly the existing students whose Present share
      of their class/section/month records is at least 70%. */
  lemma GetStudentsAbove70Exact(records: seq<Record>, students: seq<Student>, q: StudentQuery, s: StudentId)
    requires Truthy(q.above70) && Truthy(q.className) && Truthy(q.section) && q.month.Some? && q.year.Some?
    ensures var rs := MonthRecords(records, q.className.value, q.section.value, q.year.value, q.month.value);
            GetStudents(records, students, q).Grouped? &&
            ((exists j :: j in GetStudents(records, students, q).rows && j.group.student == s) <==>
               s < |students| && CountFor(rs, s) > 0 && 100 * PresentFor(rs, s) >= 70 * CountFor(rs, s))
  {
    Above70Exact(records, students, q.className.value, q.section.value, q.year.value, q.month.value, s);
  }
}

=== FILE: teacher_controller.dfy ===
/**
 * The teacher controller (03/backend/controllers/teacherController.js):
 * create with validation, and list. The section is optional; a teacher
 * without one may mark every section of its class.
 */
module TeacherController {
  import opened Common
  import opened AttendanceModel
  import opened AttendanceController

  /** The `subjects` field of the body: absent, present but not an array, or a list. */
  datatype SubjectsInput = NoSubjects | NotAList | SubjectList(items: seq<string>)

  datatype TeacherReply =
    | TeacherCreated(teacher: Teacher)
    | TeacherRefused(status: int, error: string)

  const MissingTeacherFields := "Name, class, and at least one subject are required."

  function CreateTeacherOutcome(name: Field, className: Field, section: Field, subjects: SubjectsInput): (r: TeacherReply)
    ensures r.TeacherCreated? <==>
              Truthy(name) && Truthy(className) && subjects.SubjectList? && |subjects.items| > 0
    ensures r.TeacherCreated? ==> r.teacher == Teacher(name.value, className.value, section, subjects.items)
    ensures r.TeacherRefused? ==> r == TeacherRefused(400, MissingTeacherFields)
  {
    if !Truthy(name) || !Truthy(className) then TeacherRefused(400, MissingTeacherFields)
    else match subjects
      case SubjectList(items) =>
        if |items| == 0 then TeacherRefused(400, MissingTeacherFields)
        else TeacherCreated(Teacher(name.value, className.value, section, items))
      case _ => TeacherRefused(400, MissingTeacherFields)
  }

  /** Whether the request is accepted does not depend on the section at all. */
  lemma SectionDoesNotDecide(name: Field, className: Field, s1: Field, s2: Field, subjects: SubjectsInput)
    ensures CreateTeacherOutcome(name, className, s1, subjects).TeacherCreated? ==
            CreateTeacherOutcome(name, className, s2, subjects).TeacherCreated?
  {
  }

  /** POST /teachers on the store. */
  method CreateTeacher(store: Store, name: Field, className: Field, section: Field, subjects: SubjectsInput)
    returns (reply: TeacherReply)
    requires store.Valid()
    modifies store
    ensures store.Valid()
    ensures reply == CreateTeacherOutcome(name, className, section, subjects)
    ensures reply.TeacherCreated? ==> store.teachers == old(store.teachers) + [reply.teacher]
    ensures reply.TeacherRefused? ==> store.teachers == old(store.teachers)
    ensures store.students == old(store.students) && store.holidays == old(store.holidays)
    ensures store.records == old(store.records)
  {
    reply := CreateTeacherOutcome(name, className, section, subjects);
    if reply.TeacherCreated? {
      store.teachers := store.teachers + [reply.teacher];
    }
  }

  /** GET /teachers: every stored teacher, in collection order. */
  method GetTeachers(store: Store) returns (teachers: seq<Teacher>)
    ensures teachers == store.teachers
  {
    teachers := store.teachers;
  }

  /** A newly created teacher may mark its class: any section when it was
      given no section, otherwise only its own. */
  lemma CreatedTeacherAuthorisation(teachers: seq<Teacher>, name: Field, className: Field, section: Field,
                                    subjects: SubjectsInput, markedSection: string)
    requires CreateTeacherOutcome(name, className, section, subjects).TeacherCreated?
    ensures var all := teachers + [CreateTeacherOutcome(name, className, section, subjects).teacher];
            Authorised(all, |teachers|, className.value, markedSection) <==>
              !Truthy(section) || section.value == markedSection
  {
  }
}

=== FILE: token_auth.dfy ===
/**
 * Credential handling of the chat back end:
 *  - the HTTP middleware that takes a bearer token out of the
 *    `Authorization` header and verifies it (middleware/auth.js), and
 *  - the socket handshake gate installed with `io.use` (server.js).
 *
 * Token verification (jsonwebtoken with the server secret and a 7-day
 * expiry) is not modelled: it is a parameter `verify` that yields the
 * decoded claims of a token, or None where the library would throw.
 */
module TokenAuth {
  import opened Common

  /** The payload signed into every token: the user's id and username. */
  datatype Claims = Claims(id: string, username: string)

  /** A token verifier: decoded claims, or None for a bad or expired token. */
  type Verifier = string -> Option<Claims>

  // ---------------------------------------------------------------------
  // `String.prototype.split(' ')`
  // ---------------------------------------------------------------------

  /** The fields of `s` between single spaces; n spaces give n + 1 fields. */
  function SplitOnSpace(s: string): (r: seq<string>)
    ensures |r| >= 1
  {
    if s == [] then [""]
    else
      var rest := SplitOnSpace(s[1..]);
      if s[0] == ' ' then [""] + rest
      else [[s[0]] + rest[0]] + rest[1..]
  }

  /** `fields.join(' ')`. */
  function JoinWithSpace(fields: seq<string>): string
    requires |fields| >= 1
  {
    if |fields| == 1 then fields[0]
    else fields[0] + " " + JoinWithSpace(fields[1..])
  }

  lemma ConcatAssoc(a: string, b: string, c: string)
    ensures (a + b) + c == a + (b + c)
  {
  }

  /** A character put in front of the first field is put in front of the joined string. */
  lemma JoinPrependChar(c: char, fields: seq<string>)
    requires |fields| >= 1
    ensures JoinWithSpace([[c] + fields[0]] + fields[1..]) == [c] + JoinWithSpace(fields)
  {
    var g := [[c] + fields[0]] + fields[1..];
    if |fields| > 1 {
      var a, tail := fields[0], JoinWithSpace(fields[1..]);
      assert g[1..] == fields[1..];
      calc {
        JoinWithSpace(g);
        (([c] + a) + " ") + tail;
        { ConcatAssoc([c], a, " "); }
        ([c] + (a + " ")) + tail;
        { ConcatAssoc([c], a + " ", tail); }
        [c] + ((a + " ") + tail);
      }
    }
  }

  /** Splitting loses nothing: joining the fields back gives the header. */
  lemma {:induction false} SplitJoin(s: string)
    ensures JoinWithSpace(SplitOnSpace(s)) == s
  {
    if s != [] {
      var rest := SplitOnSpace(s[1..]);
      SplitJoin(s[1..]);
      if s[0] == ' ' {
        assert ([""] + rest)[1..] == rest;
      } else {
        JoinPrependChar(s[0], rest);
      }
      assert s == [s[0]] + s[1..];
    }
  }

  /** No field contains the separator. */
  lemma {:induction false} SplitFieldsHaveNoSpace(s: string)
    ensures forall k :: 0 <= k < |SplitOnSpace(s)| ==> ' ' !in SplitOnSpace(s)[k]
  {
    if s != [] {
      SplitFieldsHaveNoSpace(s[1..]);
      var rest := SplitOnSpace(s[1..]);
      if s[0] != ' ' {
        assert ' ' !in rest[0];
        assert ' ' !in [s[0]] + rest[0];
      }
    }
  }

  /** A string without spaces is a single field. */
  lemma {:induction false} SplitNoSpace(s: string)
    requires ' ' !in s
    ensures SplitOnSpace(s) == [s]
  {
    if s != [] {
      assert ' ' !in s[1..] by {
        forall k | 0 <= k < |s[1..]| ensures s[1..][k] != ' ' {
          assert s[1..][k] == s[k + 1];
        }
      }
      SplitNoSpace(s[1..]);
      assert [s[0]] + s[1..] == s;
    }
  }

  // ---------------------------------------------------------------------
  // authMiddleware (middleware/auth.js)
  // ---------------------------------------------------------------------

  /** `req.headers['authorization']?.split(' ')[1]`, with `undefined` as None. */
  function HeaderToken(header: Field): (t: Field)
    ensures header.None? ==> t.None?
  {
    match header
    case None => None
    case Some(h) =>
      var fields := SplitOnSpace(h);
      if |fields| >= 2 then Some(fields[1]) else None
  }

  /** A header without a space has no second field. */
  lemma NoSpaceNoToken(h: string)
    requires ' ' !in h
    ensures HeaderToken(Some(h)) == None
  {
    SplitNoSpace(h);
  }

  /** The token is the text after the first space, up to the next space
      (or the end): `a + " " + b + c` yields `b` when `c` is empty or
      starts with a space. */
  lemma HeaderTokenIsSecondField(a: string, b: string, c: string)
    requires ' ' !in a && ' ' !in b
    requires c == [] || c[0] == ' '
    ensures HeaderToken(Some(a + " " + b + c)) == Some(b)
  {
    SplitPrefix(a, b, c);
  }

  /** "Bearer X" yields exactly "X". */
  lemma BearerTokenExtracted(t: string)
    requires ' ' !in t
    ensures HeaderToken(Some("Bearer " + t)) == Some(t)
  {
    HeaderTokenIsSecondField("Bearer", t, []);
    assert "Bearer" + " " + t + [] == "Bearer " + t;
  }

  /** Helper: the first two fields of `a + " " + b + c` where c starts a new field. */
  lemma {:induction false} SplitPrefix(a: string, b: string, c: string)
    requires ' ' !in a && ' ' !in b
    requires c == [] || c[0] == ' '
    ensures |SplitOnSpace(a + " " + b + c)| >= 2
    ensures SplitOnSpace(a + " " + b + c)[0] == a
    ensures SplitOnSpace(a + " " + b + c)[1] == b
  {
    if a == [] {
      assert a + " " + b + c == " " + (b + c);
      assert (" " + (b + c))[1..] == b + c;
      FieldThenRest(b, c);
    } else {
      assert ' ' !in a[1..] by {
        forall k | 0 <= k < |a[1..]| ensures a[1..][k] != ' ' {
          assert a[1..][k] == a[k + 1];
        }
      }
      SplitPrefix(a[1..], b, c);
      assert (a + " " + b + c)[1..] == a[1..] + " " + b + c;
      assert [a[0]] + a[1..] == a;
    }
  }

  /** Helper: a space-free field `b` followed by `c` that starts a new field. */
  lemma {:induction false} FieldThenRest(b: string, c: string)
    requires ' ' !in b
    requires c == [] || c[0] == ' '
    ensures SplitOnSpace(b + c)[0] == b
  {
    if b == [] {
      assert b + c == c;
    } else {
      assert ' ' !in b[1..] by {
        forall k | 0 <= k < |b[1..]| ensures b[1..][k] != ' ' {
          assert b[1..][k] == b[k + 1];
        }
      }
      FieldThenRest(b[1..], c);
      assert (b + c)[1..] == b[1..] + c;
      assert [b[0]] + b[1..] == b;
    }
  }

  /** What the middleware does with a request. */
  datatype AuthOutcome =
    | NextCalled(user: Claims)                // `req.user` set, `next()` called once
    | Rejected(status: int, error: string)    // response sent, `next` never called

  const NoTokenError := "No token provided"
  const BadTokenError := "Invalid or expired token"

  function AuthMiddleware(header: Field, verify: Verifier): (o: AuthOutcome)
    ensures o.Rejected? ==> o.status == 401
    ensures !Truthy(HeaderToken(header)) <==> o == Rejected(401, NoTokenError)
    ensures Truthy(HeaderToken(header)) && verify(HeaderToken(header).value).None? ==>
              o == Rejected(401, BadTokenError)
    ensures o.NextCalled? ==>
              Truthy(HeaderToken(header)) && verify(HeaderToken(header).value) == Some(o.user)
    ensures Truthy(HeaderToken(header)) && verify(HeaderToken(header).value).Some? ==>
              o == NextCalled(verify(HeaderToken(header).value).value)
  {
    var token := HeaderToken(header);
    if !Truthy(token) then Rejected(401, NoTokenError)
    else match verify(token.value)
      case None => Rejected(401, BadTokenError)
      case Some(claims) => NextCalled(claims)
  }

  /** The missing-token check precedes verification: without a token the
      outcome is the same whatever the verifier would have said. */
  lemma MissingTokenNeverVerified(header: Field, v1: Verifier, v2: Verifier)
    requires !Truthy(HeaderToken(header))
    ensures AuthMiddleware(header, v1) == AuthMiddleware(header, v2) == Rejected(401, NoTokenError)
  {
  }

  /** An Express request as the middleware sees it. */
  class Request {
    const authorization: Field
    var user: Option<Claims>
    var nextCalls: nat
    var response: Option<(int, string)>

    constructor (authorization: Field)
      ensures this.authorization == authorization
      ensures user == None && nextCalls == 0 && response == None
    {
      this.authorization := authorization;
      user := None;
      nextCalls := 0;
      response := None;
    }
  }

  /** Runs the middleware on a fresh request: exactly one of "next called
      once with `req.user` set" and "401 response sent". */
  method Authenticate(req: Request, verify: Verifier)
    requires req.nextCalls == 0 && req.response == None
    modifies req
    ensures req.nextCalls <= 1
    ensures (req.nextCalls == 1) != req.response.Some?
    ensures match AuthMiddleware(req.authorization, verify)
            case NextCalled(claims) => req.user == Some(claims) && req.nextCalls == 1
            case Rejected(status, error) =>
              req.response == Some((status, error)) && req.user == old(req.user)
  {
    var outcome := AuthMiddleware(req.authorization, verify);
    match outcome {
      case NextCalled(claims) =>
        req.user := Some(claims);
        req.nextCalls := req.nextCalls + 1;
      case Rejected(status, error) =>
        req.response := Some((status, error));
    }
  }

  // ---------------------------------------------------------------------
  // Socket handshake gate (`io.use` in server.js)
  // ---------------------------------------------------------------------

  /** The single call the gate makes to `next`. */
  datatype GateOutcome =
    | Admit(user: Claims)         // `socket.user = payload; next()`
    | Refuse(error: string)       // `next(new Error(...))`

  const HandshakeMissing := "Authentication error"
  const HandshakeFailed := "Authentication failed"

  function HandshakeGate(token: Field, verify: Verifier): (o: GateOutcome)
    ensures !Truthy(token) <==> o == Refuse(HandshakeMissing)
    ensures Truthy(token) && verify(token.value).None? <==> o == Refuse(HandshakeFailed)
    ensures o.Admit? ==> Truthy(token) && verify(token.value) == Some(o.user)
    ensures Truthy(token) && verify(token.value).Some? ==> o == Admit(verify(token.value).value)
  {
    if !Truthy(token) then Refuse(HandshakeMissing)
    else match verify(token.value)
      case None => Refuse(HandshakeFailed)
      case Some(claims) => Admit(claims)
  }

  /** A missing token never reaches the verifier. */
  lemma HandshakeMissingNeverVerified(token: Field, v1: Verifier, v2: Verifier)
    requires !Truthy(token)
    ensures HandshakeGate(token, v1) == HandshakeGate(token, v2)
  {
  }
}

=== FILE: user_routes.dfy ===
/**
 * The account routes of the chat back end (routes/user.js): register,
 * login and the user search. They work on the same user collection as the
 * socket handlers, so register and login update `ChatServer.users`.
 *
 * Not modelled: token signing (the reply carries the claims a token would
 * sign), bcrypt (a parameter `passwordMatches`, always handed the
 * absent stored password), the case-insensitive
 * regular expression of the search (a parameter `nameMatches`), and the
 * configured referral code, which is a parameter (`undefined` when unset).
 */
module UserRoutes {
  import opened Common
  import opened TokenAuth
  import opened ChatStore

  /** The request body of register and login. */
  datatype Credentials = Credentials(username: Field, password: Field, referralCode: Field)

  /** `res.json({ user, token })` (status 200) or an error status. */
  datatype AccountReply =
    | Welcome(user: User, token: Claims)
    | Refused(status: int, error: string)

  const MissingFields := "Missing fields"
  const BadReferral := "Invalid referral code"
  const RegistrationFailed := "Registration failed"
  const BadLogin := "Invalid username or password"

  /** The two checks both routes start with, in order; None when both pass. */
  function FieldChecks(c: Credentials, configured: Field): (r: Option<AccountReply>)
    ensures !(Truthy(c.username) && Truthy(c.password) && Truthy(c.referralCode)) <==>
              r == Some(Refused(400, MissingFields))
    ensures r == None <==>
              Truthy(c.username) && Truthy(c.password) && Truthy(c.referralCode) && c.referralCode == configured
  {
    if !Truthy(c.username) || !Truthy(c.password) || !Truthy(c.referralCode) then
      Some(Refused(400, MissingFields))
    else if c.referralCode != configured then
      Some(Refused(401, BadReferral))
    else None
  }

  /** With no configured code every complete request is refused with 401. */
  lemma UnsetReferralRefusesAll(c: Credentials)
    requires Truthy(c.username) && Truthy(c.password) && Truthy(c.referralCode)
    ensures FieldChecks(c, None) == Some(Refused(401, BadReferral))
  {
  }

  function UsernameIndex(users: seq<User>, name: string): Option<nat> {
    FirstIndex(users, (u: User) => u.username == name)
  }

  /** POST /register. The password is not part of the user schema, so it is
      not stored. A taken username makes the save fail (500). */
  function RegisterOutcome(users: seq<User>, c: Credentials, configured: Field, freshId: string): (r: AccountReply)
    ensures r.Welcome? <==>
              FieldChecks(c, configured) == None && UsernameIndex(users, c.username.value).None?
    ensures r.Welcome? ==>
              r.user == User(freshId, c.username.value, c.referralCode.value, None, false) &&
              r.token == Claims(freshId, c.username.value)
    ensures FieldChecks(c, configured).Some? ==> r == FieldChecks(c, configured).value
    ensures r.Refused? && FieldChecks(c, configured) == None ==> r == Refused(500, RegistrationFailed)
  {
    match FieldChecks(c, configured)
    case Some(refusal) => refusal
    case None =>
      if UsernameIndex(users, c.username.value).Some? then Refused(500, RegistrationFailed)
      else
        var user := User(freshId, c.username.value, c.referralCode.value, None, false);
        Welcome(user, Claims(freshId, c.username.value))
  }

  /** The `password` of a user document: the schema has no such field, so
      whatever register was given, a stored user has none (`undefined`). */
  const StoredPassword: Option<string> := None

  /** POST /login. An unknown username and a wrong password give the same answer.
      `passwordMatches(given, stored)` is `bcrypt.compare`. */
  function LoginOutcome(users: seq<User>, c: Credentials, configured: Field,
                        passwordMatches: (string, Option<string>) -> bool): (r: AccountReply)
    ensures FieldChecks(c, configured).Some? ==> r == FieldChecks(c, configured).value
    ensures r.Welcome? ==>
              FieldChecks(c, configured) == None &&
              var i := UsernameIndex(users, c.username.value);
              i.Some? && passwordMatches(c.password.value, StoredPassword) &&
              r.user == users[i.value].(isOnline := true) &&
              r.token == Claims(users[i.value].id, users[i.value].username)
    ensures FieldChecks(c, configured) == None && UsernameIndex(users, c.username.value).Some? &&
              passwordMatches(c.password.value, StoredPassword) ==>
              r.Welcome?
    ensures r.Refused? && FieldChecks(c, configured) == None ==> r == Refused(401, BadLogin)
  {
    match FieldChecks(c, configured)
    case Some(refusal) => refusal
    case None =>
      match UsernameIndex(users, c.username.value)
      case None => Refused(401, BadLogin)
      case Some(i) =>
        if !passwordMatches(c.password.value, StoredPassword) then Refused(401, BadLogin)
        else
          var user := users[i].(isOnline := true);
          Welcome(user, Claims(user.id, user.username))
  }

  /** Unknown user and wrong password are indistinguishable to the client. */
  lemma LoginFailuresIdentical(users: seq<User>, c: Credentials, configured: Field,
                               passwordMatches: (string, Option<string>) -> bool)
    requires FieldChecks(c, configured) == None
    requires UsernameIndex(users, c.username.value).None? ||
             !passwordMatches(c.password.value, StoredPassword)
    ensures LoginOutcome(users, c, configured, passwordMatches) == Refused(401, BadLogin)
  {
  }

  /** Register, applied to the user collection. */
  method Register(server: ChatServer, c: Credentials, configured: Field, freshId: string)
    returns (reply: AccountReply)
    requires server.Valid()
    modifies server
    ensures server.Valid()
    ensures reply == RegisterOutcome(old(server.users), c, configured, freshId)
    ensures reply.Welcome? ==> server.users == old(server.users) + [reply.user]
    ensures reply.Refused? ==> server.users == old(server.users)
    ensures server.connected == old(server.connected) && server.socketUser == old(server.socketUser)
    ensures server.rooms == old(server.rooms) && server.log == old(server.log) && server.sent == old(server.sent)
  {
    reply := RegisterOutcome(server.users, c, configured, freshId);
    if reply.Welcome? {
      var users := server.users;
      assert forall j :: 0 <= j < |users| ==> users[j].username != reply.user.username;
      server.users := users + [reply.user];
    }
  }

  /** Login, applied to the user collection: only that user's `isOnline` changes. */
  method Login(server: ChatServer, c: Credentials, configured: Field,
               passwordMatches: (string, Option<string>) -> bool) returns (reply: AccountReply)
    requires server.Valid()
    modifies server
    ensures server.Valid()
    ensures reply == LoginOutcome(old(server.users), c, configured, passwordMatches)
    ensures reply.Welcome? ==>
              var i := UsernameIndex(old(server.users), c.username.value).value;
              server.users == old(server.users)[i := old(server.users)[i].(isOnline := true)]
    ensures reply.Refused? ==> server.users == old(server.users)
    ensures server.connected == old(server.connected) && server.socketUser == old(server.socketUser)
    ensures server.rooms == old(server.rooms) && server.log == old(server.log) && server.sent == old(server.sent)
  {
    reply := LoginOutcome(server.users, c, configured, passwordMatches);
    if reply.Welcome? {
      var i := UsernameIndex(server.users, c.username.value).value;
      var users := server.users[i := server.users[i].(isOnline := true)];
      assert forall j :: 0 <= j < |users| ==> users[j].username == server.users[j].username;
      server.users := users;
    }
  }

  // ---------------------------------------------------------------------
  // GET /users: filter and projection
  // ---------------------------------------------------------------------

  /** A user document without `referralCode` (the `-referralCode` projection). */
  datatype UserView = UserView(id: string, username: string, socketId: Option<SocketId>, isOnline: bool)

  function View(u: User): UserView {
    UserView(u.id, u.username, u.socketId, u.isOnline)
  }

  /** The search filter: a name pattern when given, an exact code when given. */
  predicate SearchMatch(u: User, username: Field, referralCode: Field,
                        nameMatches: (string, string) -> bool) {
    && (Truthy(username) ==> nameMatches(username.value, u.username))
    && (Truthy(referralCode) ==> u.referralCode == referralCode.value)
  }

  function SearchUsers(users: seq<User>, username: Field, referralCode: Field,
                       nameMatches: (string, string) -> bool): (r: seq<UserView>)
    ensures |r| <= |users|
    ensures forall v :: v in r ==>
              exists u :: u in users && View(u) == v && SearchMatch(u, username, referralCode, nameMatches)
  {
    var found := Filter(users, (u: User) => SearchMatch(u, username, referralCode, nameMatches));
    var r := seq(|found|, k requires 0 <= k < |found| => View(found[k]));
    assert forall v :: v in r ==>
             exists u :: u in users && View(u) == v && SearchMatch(u, username, referralCode, nameMatches) by {
      forall v | v in r
        ensures exists u :: u in users && View(u) == v && SearchMatch(u, username, referralCode, nameMatches)
      {
        var k :| 0 <= k < |r| && r[k] == v;
        assert found[k] in found;
      }
    }
    r
  }

  /** Every result is the projection of a stored user that passes the filter
      (with a code given: whose code equals it exactly), and every such user
      is in the result. */
  lemma SearchExact(users: seq<User>, username: Field, referralCode: Field,
                    nameMatches: (string, string) -> bool)
    ensures forall v :: v in SearchUsers(users, username, referralCode, nameMatches) ==>
              exists u :: u in users && View(u) == v && SearchMatch(u, username, referralCode, nameMatches)
    ensures forall u :: u in users && SearchMatch(u, username, referralCode, nameMatches) ==>
              View(u) in SearchUsers(users, username, referralCode, nameMatches)
  {
    var p := (u: User) => SearchMatch(u, username, referralCode, nameMatches);
    var found := Filter(users, p);
    var r := SearchUsers(users, username, referralCode, nameMatches);
    forall v | v in r
      ensures exists u :: u in users && View(u) == v && SearchMatch(u, username, referralCode, nameMatches)
    {
      var k :| 0 <= k < |r| && r[k] == v;
      assert found[k] in found;
    }
    forall u | u in users && SearchMatch(u, username, referralCode, nameMatches)
      ensures View(u) in r
    {
      assert p(u);
      var k :| 0 <= k < |found| && found[k] == u;
      assert r[k] == View(u);
    }
  }
}
